=== FILE: README.md ===
# NEXUS console core, modelled in Dafny

NEXUS is a browser console. It sends one prompt to several AI "personas", all served by one text-generation backend, and then runs a blind peer review. Each persona answers. The answers are shuffled into an anonymous ring. Every persona grades the next answer in the ring. The highest-scored persona is announced, and the completed session is written to a capped history log in browser storage.

This project models that core as pure functions over immutable values and proves properties of them. Everything nondeterministic or external is an input. That covers:

- backend replies (thrown, empty, text, parsed JSON);
- clock readings;
- fresh session ids;
- whether a storage write succeeds;
- the shuffle, which is any permutation the caller supplies.

Modules, following the program's files:

| module | file | what it models |
|---|---|---|
| `Types` | `types.dfy` | persona ids, profiles, generations, reviews, session snapshots |
| `Catalog` | `catalog.dfy` | the persona catalog: display metadata and system-prompt styles |
| `Gemini` | `gemini.dfy` | the two backend clients: request construction and reply normalisation |
| `Storage` | `storage.dfy` | the history log: upsert by id, cap at 20, the key-value store |
| `HistorySidebar` | `history_sidebar.dfy` | the history panel and its winner badge |
| `ModelCard` | `model_card.dfy` | one answer card: masking, loading, overlay, footer, grade colours |
| `Submission` | `submission.dfy` | persona selection toggle, submit guard, prompt construction |
| `Announcer` | `announcer.dfy` | the winner announcement: stable descending sort by score |
| `Orchestrator` | `orchestrator.dfy` | the phase machine, the generation fan-out, ring pairing, completion effects |
| `Board` | `board.dfy` | the grid of cards: which cards, with which review and reviewer |

The main results:

- **Ring pairing.** If the shuffled order is a permutation of the selection, the "Target generation missing" failure cannot happen (`Orchestrator.PermutationFindsEveryTarget`). The review targets are the order rotated by one (`Orchestrator.RingTargetsRotate`). A run then passes through generating, shuffling, reviewing, grading and complete, in that order (`Orchestrator.RunCompletes`). Every card of the final board shows the review written by its predecessor in the ring (`Board.CompletedBoardShowsRing`). This holds for the catalog layout the code uses and for the shuffled layout it evidently intends.
- **History log.** Saving:
  - is a no-op unless the session is saveable;
  - replaces a known id in place;
  - prepends a new id;
  - never exceeds 20 entries;
  - evicts exactly the oldest entry when full;
  - keeps ids distinct.
- **Winner.** The sort is stable, so the spoken winner (the head of the descending sort) is the first review with the highest score. That is also the persona the history badge names (`Announcer.AnnouncementMatchesBadge`).
- **Blind review.** While a card is masked and the session is not complete, nothing on the card depends on which persona it belongs to or on its review (`ModelCard.BlindCardRevealsNothing`). During the three blind phases, every card on the board is masked (`Board.BlindBoardMasksEveryCard`). The cards are still laid out in catalog order, so a card's position names its persona (see Findings).

Notes on how the code is read:

- **Known id on save.** An entry whose id is already in the log is overwritten at its own position (services/storage.ts:20-22). It is not moved to the front.
- **No status check in `handleStart`.** `handleStart` does not check the session status itself. Only the disabled text box and button prevent a second run while one is in flight (App.tsx:462, App.tsx:491). `Orchestrator.Submit` models the handler's own guard. `Orchestrator.SubmitEnabled` models the button.
- **Text box after submit.** Submitting clears the staged upload, but not the text box (App.tsx:134). A transcript from a recording stopped by the submission can still arrive later (see Left out).
- **Failed review batch.** A failed review batch leaves the session in `reviewing` with an error and no reviews (App.tsx:172-173). No step of the run moves it on. The persona buttons, text box, microphone and submit button are disabled (App.tsx:254, App.tsx:462, App.tsx:473, App.tsx:491). The upload buttons (App.tsx:440, App.tsx:445, App.tsx:454) stay usable but do not change the session. Only choosing a logged session from the history panel (App.tsx:329-335) leaves that state (`Orchestrator.PanelFreesParkedSession`).
- **Reopening from history.** Reopening a logged session from the history panel while the console is idle changes the status to `complete`. That fires the completion effect again, which re-saves with a new stamp and re-announces (App.tsx:63-69, App.tsx:301-304). `Orchestrator.ReopeningDoesNotGrowLog` shows the log does not grow. The panel also stays usable while a run is in flight, which hands the run to the reopened session (see Findings). The model locks the panel during a run, like the other controls, but not in a session parked by a failed review batch.
- **Scores.** Scores are `real`. JavaScript numbers are modelled only through the comparisons the code makes.

## Model

| member | source | states |
|---|---|---|
| `Types.AllModelIdsComplete` | types.ts:1-9 | The declaration-order id list names each of the seven personas exactly once. |
| `Catalog.Profile` | constants.ts:3-60 | Every persona has a catalog entry, and the entry under a key carries that key as its id. |
| `Catalog.Style` | constants.ts:3-60 | Every persona has a non-empty system-prompt style. |
| `Catalog.ProfileNamesDistinct` | constants.ts:3-60 | Two personas have the same display name exactly when they are the same persona. |
| `Gemini.SystemInstruction` | services/geminiService.ts:25 | The generation instruction is the persona's style followed by exactly " Keep your response under 150 words.". |
| `Gemini.GenerationRequestFor` | services/geminiService.ts:21-28 | The request carries the user's prompt verbatim, the persona's instruction, the fixed backend model and temperature 0.7. |
| `Gemini.GeneratePersonaResponse` | services/geminiService.ts:13-43 | The result carries the requested persona and the clock reading. Empty text gives "No response generated.", a thrown call gives "Connection failed. System offline.", and otherwise the text is kept. |
| `Gemini.GeneratedContentNeverEmpty` | services/geminiService.ts:30-41 | Whatever the backend did, the generation content is never empty. |
| `Gemini.ReviewContents` | services/geminiService.ts:55 | The review prompt is the fixed preamble, then the target text verbatim, then the fixed grading instructions. |
| `Gemini.RoleInstruction` | services/geminiService.ts:57 | The reviewer instruction starts "You are acting as ", then the reviewer's name, then ". ", the style and the closing sentence. |
| `Gemini.ReviewSystemInstruction` | services/geminiService.ts:57 | A reviewer's instruction contains its catalog name right after the opening words, followed by its style and the blind-review closing sentence. |
| `Gemini.ReviewRequestFor` | services/geminiService.ts:53-68 | The review request uses the fixed model and JSON output. Its schema is an object with a string `critique` and a number `score`, both required. It carries the review prompt and the reviewer's instruction. |
| `Gemini.CritiqueOf` | services/geminiService.ts:75 | The critique read from a parsed reply is never empty: a non-empty string is kept, and a missing or empty one becomes "Analysis failed.". |
| `Gemini.ScoreOf` | services/geminiService.ts:76 | A numeric score is kept, and anything else reads as 0. |
| `Gemini.ReviewAndGradeResponse` | services/geminiService.ts:45-87 | The reviewer is echoed and the target is the Gemini placeholder. A thrown call gives "Review process interrupted." with score 0. An empty or missing critique gives "Analysis failed.". A non-number score gives 0. |
| `Gemini.EmptyTextReadsAsEmptyObject` | services/geminiService.ts:70 | A reply with no text is read exactly like the JSON object `{}`. |
| `Gemini.ReviewFallbacks` | services/geminiService.ts:72-85 | A review's critique is never empty. Unless the reply parsed with a numeric score, the score is 0. |
| `Storage.ShouldSave` | services/storage.ts:7 | A session is saveable exactly when it is complete and its prompt is not empty. |
| `Storage.FindIndex` | services/storage.ts:12 | The result is the first position holding the id, or none exactly when no entry has it. |
| `Storage.Stamp` | services/storage.ts:14-17 | The written entry carries the save time, and every other field of the session unchanged. |
| `Storage.Upsert` | services/storage.ts:12-25 | After the write the entry is in the list, every other element was there before, and the list grows by one exactly when the id was new. |
| `Storage.SaveSessionToHistory` | services/storage.ts:5-35 | Saving an unsaveable session (empty prompt or not complete) changes nothing. A saved history never has more than 20 entries. |
| `Storage.SaveReplacesInPlace` | services/storage.ts:12-22 | A known id is overwritten by the stamped session at its own position. All other entries stay as they were, and the length does not change (up to the cap). |
| `Storage.SavePrepends` | services/storage.ts:23-28 | A new id is put first and the old entries follow in their old order, one longer (up to the cap). |
| `Storage.SaveEvictsOldest` | services/storage.ts:24-28 | Saving a new id into a full log gives the stamped session followed by the first 19 old entries, so the oldest is dropped. |
| `Storage.SavePreservesDistinctIds` | services/storage.ts:12-28 | If the log's ids are pairwise distinct before a save, they are after it. |
| `Storage.ResaveDoesNotGrow` | services/storage.ts:12-28 | Saving the same session a second time does not change the log's length, whatever the log held before. |
| `Storage.GetHistory` | services/storage.ts:37-44 | Reading gives the stored list, or the empty list when nothing is stored or the stored text is not JSON (`JSON.parse` throws, or the text is empty). |
| `Storage.ClearHistory` | services/storage.ts:46-48 | After clearing, reading gives the empty list. |
| `Storage.SaveToStore` | services/storage.ts:30-34 | A refused write or an unsaveable session leaves the store as it was. Otherwise reading back gives the saved history. |
| `Storage.SavedStoreHoldsSession` | services/storage.ts:5-35 | A store holding at most 20 entries still does so after any save. After a successful save it contains the stamped session. |
| `HistorySidebar.FirstMaxUnique` | components/HistorySidebar.tsx:49-50 | At most one position holds the first highest score. |
| `HistorySidebar.MaxScore` | components/HistorySidebar.tsx:49 | The result is none exactly for no reviews (the -Infinity case). Otherwise it is some review's score, and no review scores more. |
| `HistorySidebar.FindScore` | components/HistorySidebar.tsx:50 | The result is the first position with exactly that score, or none when no review has it. |
| `HistorySidebar.WinnerIndex` | components/HistorySidebar.tsx:49-51 | There is no winner exactly when there are no reviews. Otherwise the winner has the highest score and no earlier review reaches it. |
| `HistorySidebar.EntryFor` | components/HistorySidebar.tsx:47-78 | An entry shows the session's id, date stamp and prompt, and the number of answers. It names as winner the persona of the first highest-scored review, or nobody without reviews. |
| `HistorySidebar.Render` | components/HistorySidebar.tsx:19-47 | The panel is hidden exactly when closed and shows "no records" exactly when open with an empty log. Otherwise it has one entry per logged session, in log order. |
| `HistorySidebar.WinnerDeterministic` | components/HistorySidebar.tsx:49-50 | Any position that is the first maximum is the one the badge picks. |
| `ModelCard.DisplayIdentity` | components/ModelCard.tsx:32-34 | Masked, the card shows "Subject ???", "text-gray-500" and "Encrypted". Unmasked, it shows the catalog's name, colour and provider. |
| `ModelCard.MaskingHidesIdentity` | components/ModelCard.tsx:28-34 | Masked identities of any two personas are equal. Unmasked identities are equal only for the same persona. |
| `ModelCard.CardIcon` | components/ModelCard.tsx:39-52 | The generic icon is shown exactly when masked, and otherwise the persona's own icon. |
| `ModelCard.IsLoading` | components/ModelCard.tsx:36 | The card is loading exactly while the answers are being generated. |
| `ModelCard.ShowsTokenCount` | components/ModelCard.tsx:69 | The token count is shown exactly for an unmasked card that has an answer. |
| `ModelCard.CardBody` | components/ModelCard.tsx:36-94 | Loading dots exactly while generating. The answer exactly when not generating and an answer exists, and it is that answer's content. |
| `ModelCard.Overlay` | components/ModelCard.tsx:97-105 | The overlay appears exactly when masked, not complete and an answer exists. Its caption depends on the phase. |
| `ModelCard.GradeBand` | components/ModelCard.tsx:117 | Green exactly for scores of 8 and above, yellow exactly for 5 up to below 8, red exactly below 5. |
| `ModelCard.GradeBandMonotone` | components/ModelCard.tsx:117 | A higher score never gets a worse colour band. |
| `ModelCard.BandColor` | components/ModelCard.tsx:117 | Each band has its own colour class: green, yellow or red text. |
| `ModelCard.ReviewFooter` | components/ModelCard.tsx:109-136 | The footer appears exactly when complete with both a review and a reviewer. It shows the score, printed in green text exactly from 8, yellow exactly from 5 up to below 8 and red below 5, the reviewer's catalog name and the critique. |
| `ModelCard.RenderCard` | components/ModelCard.tsx:28-137 | A masked card shows the masked identity, the generic icon and no token count. An unmasked one shows the persona's name and icon, with a token count exactly when it has an answer. The blind-phase overlay and the review footer never appear together. A card with a footer is complete and past its loading dots, and shows the critique and the reviewer's name. An answer body is the persona's answer. |
| `ModelCard.BlindCardRevealsNothing` | components/ModelCard.tsx:28-109 | A masked card of a session that is not complete renders the same whatever persona, review or reviewer it is given. |
| `Submission.Without` | App.tsx:94 | Filtering removes the id and keeps every other persona's membership. It shortens the list exactly when the id was present. |
| `Submission.WithoutCutsOnePosition` | App.tsx:94 | In a duplicate-free list, filtering out the element at position k yields the list without that position, order kept. |
| `Submission.WithoutAbsent` | App.tsx:94 | Filtering out an absent id changes nothing. |
| `Submission.WithoutDistinct` | App.tsx:94 | Filtering keeps a duplicate-free list duplicate-free. |
| `Submission.ToggleModel` | App.tsx:89-99 | An unselected persona is appended. A selected one is removed unless it is the only one. Other personas keep their membership. |
| `Submission.ToggleKeepsSelectionValid` | App.tsx:91-96 | From a duplicate-free selection, toggling never gives an empty selection or a duplicate. |
| `Submission.ToggleRemovesInPlace` | App.tsx:94 | Deselecting one of several selected personas removes exactly its position, and the rest keep their order. |
| `Submission.TrimStart` | App.tsx:115 | Only leading ECMAScript white space is removed, and the result starts with a non-space. |
| `Submission.TrimEnd` | App.tsx:115 | Only trailing ECMAScript white space is removed, and the result ends with a non-space. |
| `Submission.LeadingSpace` | App.tsx:115 | The count of leading characters that are white space, stopping at the first non-space. |
| `Submission.Trim` | App.tsx:115 | The trimmed text is the stretch of the input after its leading white space, every character after it is white space, and it starts and ends with a non-space. |
| `Submission.TrimEmptyIffBlank` | App.tsx:115 | Trimming leaves nothing exactly when every character is white space. |
| `Submission.SubmitRejected` | App.tsx:115 | A submission is ignored exactly when nothing is staged and the text is all white space. |
| `Submission.AttachmentNote` | App.tsx:122 | The attachment note is never empty. |
| `Submission.PromptToSend` | App.tsx:122 | The sent prompt starts with the raw input. It is longer than the input exactly when an upload is staged, and the rest is that upload's note. |
| `Submission.AcceptedPromptNonEmpty` | App.tsx:115-122 | An accepted submission never sends an empty prompt. |
| `Announcer.InsertByScore` | App.tsx:77 | Insertion adds exactly the one review: the multiset grows by it, and every element is it or an old one. |
| `Announcer.SortByScoreDesc` | App.tsx:77 | The sort is a permutation of the reviews. |
| `Announcer.InsertKeepsSorted` | App.tsx:77 | Inserting into a descending list keeps it descending. |
| `Announcer.SortIsSorted` | App.tsx:77 | The sort orders reviews from highest to lowest score. |
| `Announcer.InsertLeadsIffNoneHigher` | App.tsx:76 | Inserting into a descending list puts the new review first, with the list unchanged after it, exactly when no element scores strictly more. This is the stability the platform sort guarantees. |
| `Announcer.SortHeadIsFirstMax` | App.tsx:77-78 | The head of the stable descending sort is the first review with the highest score. |
| `Announcer.AnnounceWinner` | App.tsx:75-87 | Nothing is announced exactly when there are no reviews. Otherwise the winner was reviewed with the announced score, no review scores more, and the spoken name is the winner's catalog name. |
| `Announcer.AnnouncementMatchesBadge` | App.tsx:75-79 | The announced winner and the history badge always name the same persona, and both are absent together. |
| `Orchestrator.EmptySession` | App.tsx:19-27 | The initial session is idle and has the given id, no prompt, answers, reviews, order, stamp or error. It is never saveable. |
| `Orchestrator.InitialConsole` | App.tsx:19-35 | The console starts idle, with no answers or reviews, and with every persona selected once. |
| `Orchestrator.InputLocked` | App.tsx:248 | The controls are locked exactly in the four in-flight phases: generating, shuffling, reviewing and grading. |
| `Orchestrator.SubmitEnabled` | App.tsx:491 | The submit button is enabled exactly when the session is idle or complete and there is an upload or a non-space character to send. |
| `Orchestrator.ClickPersona` | App.tsx:246-254 | While a run is in flight a click changes nothing. Otherwise it toggles that persona. |
| `Orchestrator.ClickKeepsSelectionValid` | App.tsx:89-99 | A non-empty duplicate-free selection stays so after any click. |
| `Orchestrator.Submit` | App.tsx:114-134 | A blank submission with nothing staged changes nothing. Otherwise there is a fresh generating session with the new id, the sent prompt, the selection as order, and no answers, reviews or error. The upload is cleared and the text kept. |
| `Orchestrator.EnabledSubmitIsAccepted` | App.tsx:490-491 | Whenever the submit button is enabled, submitting starts a generating session. |
| `Orchestrator.Apply` | App.tsx:140-173 | Every phase step keeps the session's id, prompt and save stamp. Each event sets only its own status and field. |
| `Orchestrator.GenerationRequests` | App.tsx:137 | One request per selected persona, in selection order, all with the same prompt. |
| `Orchestrator.GenerateAll` | App.tsx:137-138 | The joined batch has one answer per selected persona, in selection order. |
| `Orchestrator.RingTarget` | App.tsx:157-158 | Reviewer i critiques persona i + 1, and the last reviewer critiques the first. |
| `Orchestrator.FindGeneration` | App.tsx:159 | The lookup finds an answer of that persona exactly when one exists. |
| `Orchestrator.ReviewRequestAt` | App.tsx:157-163 | A reviewer issues no request exactly when its ring target has no answer. Otherwise the request is about that target's answer. |
| `Orchestrator.RingReview` | App.tsx:163-165 | Reviewer i's review has reviewer order[i], the ring target as target, and the critique and score read from its reply. |
| `Orchestrator.PairReviews` | App.tsx:154-166 | A joined batch has one review per position, in order, each the ring review of that position. |
| `Orchestrator.PairReviewsRejectedIff` | App.tsx:154-169 | The review batch is rejected exactly when some reviewer's ring target has no answer. |
| `Orchestrator.ReviewCycle` | App.tsx:153-175 | The review batch is rejected exactly when some reviewer's ring target has no answer. Otherwise it holds one review per position of the order, each the ring review of that position. |
| `Orchestrator.PermutationFindsEveryTarget` | App.tsx:143-161 | When the order is a permutation of the answered personas, the review batch always joins. |
| `Orchestrator.RingTargetsRotate` | App.tsx:154-164 | The reviewers are the order itself and the targets are the order rotated by one, so every persona is reviewed as often as it reviews. |
| `Orchestrator.SinglePersonaReviewsItself` | App.tsx:155-158 | A lone persona reviews its own answer. |
| `Orchestrator.RunSession` | App.tsx:114-175 | A rejected submission gives no snapshots. Otherwise the run starts with the submitted session, and a failed generation batch ends in idle with "Critical System Failure.". |
| `Orchestrator.JoinedTrace` | App.tsx:126-171 | When the review batch joins, a run has five snapshots in the five phases. The last holds the answers, the shuffled order and the reviews. |
| `Orchestrator.RunCompletes` | App.tsx:126-171 | A run whose shuffle permutes the selection passes through generating, shuffling, reviewing, grading and complete. It ends with the sent prompt, no error, one answer per selected persona, and the ring reviews. |
| `Orchestrator.GenerationFailureReturnsToIdle` | App.tsx:148-149 | A failed generation batch returns to idle with the critical-failure message and no answers, so a new submission is possible. |
| `Orchestrator.ReviewFailureParksSession` | App.tsx:172-173 | A failed review batch keeps the status reviewing, records "Review Cycle Failed." and stores no reviews. |
| `Orchestrator.OnStatusChange` | App.tsx:63-69 | The completion effect runs exactly when the status changes to complete. It saves, reads the log back and announces. |
| `Orchestrator.SelectFromHistoryAsWritten` | App.tsx:301-304 | Choosing a logged session shows it and puts its prompt back in the text box, whatever the console is doing. The upload and selection are left alone. |
| `Orchestrator.MidRunPickMergesRunIntoLog` | App.tsx:301-304 | Choosing a logged session while a run is generating makes the run finish on that session. The completion effect saves an entry with the logged id and prompt but the run's answers and reviews. |
| `Orchestrator.RunInFlight` | App.tsx:126-173 | A run is in flight exactly when the status is one of the four locked phases and no error is recorded. |
| `Orchestrator.SelectFromHistory` | App.tsx:301-304 | While a run is in flight, choosing from the panel changes nothing. Otherwise, a parked session included, it shows the logged session and puts its prompt back in the text box. The upload and selection are left alone either way. |
| `Orchestrator.LockedPanelKeepsRun` | App.tsx:126-171 | With the panel locked, choosing any logged session at any in-flight snapshot of a run changes nothing, and the run completes under its own id and prompt. |
| `Orchestrator.PanelFreesParkedSession` | App.tsx:172-173 | After a failed review batch the session is parked in a locked phase, and choosing a logged session from the panel still shows it. |
| `Orchestrator.CompletedRunIsLogged` | App.tsx:63-69 | After a completed run the effect fires. The stamped session is in the log read back, the log has at most 20 entries, and a winner is announced. |
| `Orchestrator.ReopeningDoesNotGrowLog` | App.tsx:63-69 | Reopening a logged session re-fires the effect exactly when the console was idle or parked by a failed review batch, and the log's length stays the same. |
| `Board.IsBlindPhase` | App.tsx:413 | The cards are masked exactly in the locked phases after generating: shuffling, reviewing and grading. |
| `Board.Shown` | App.tsx:402 | The board is on screen exactly when the session is not idle or has answers. |
| `Board.FirstReviewIndex` | App.tsx:411 | The result is the first review about the persona, or none exactly when no review is about it. |
| `Board.FindReviewOf` | App.tsx:411 | The card's review is a review about that persona, absent exactly when there is none. |
| `Board.Answered` | App.tsx:404 | The board's personas are exactly those that are in the catalog list and have an answer. |
| `Board.AnsweredDistinct` | App.tsx:404 | Filtering the duplicate-free catalog list keeps it duplicate-free. |
| `Board.SlotFor` | App.tsx:405-415 | A card gets the persona's answer and its first review. It is masked exactly in the blind phases, and highlighted exactly when complete with a perfect 10. |
| `Board.Cards` | App.tsx:402-418 | One card per answered persona, in catalog order. |
| `Board.CatalogLayoutIgnoresShuffle` | App.tsx:404 | The layout does not depend on the shuffled order, and Gemini's card comes first whenever Gemini answered, masked in the blind phases. |
| `Board.ShuffledCards` | App.tsx:402-418 | The intended layout: one card per answered persona, in the session's shuffled order, each with that persona's card contents. |
| `Board.AnsweredKeepsAll` | App.tsx:404 | When every persona of a list has answered, the answered filter keeps the list as it is. |
| `Board.Swap` | App.tsx:143 | Exchanging two positions of an order gives a permutation of it with those two personas moved. |
| `Board.ShuffledLayoutFollowsOrder` | App.tsx:404 | In the shuffled layout, when every persona of the order answered, card k belongs to the persona at position k of the order. |
| `Board.AnyPersonaAnyPosition` | App.tsx:143-144 | In the shuffled layout, any answered persona can be put at any position by some permutation of the same personas, so a position does not name a persona. |
| `Board.ShuffledCardsAreTheAnswers` | App.tsx:404-410 | The shuffled layout, over an order holding every answered persona once, shows exactly the answered personas, each once. |
| `Board.CardsAreTheAnswers` | App.tsx:404-410 | The board shows exactly the personas that answered, each once, and each with its answer. |
| `Board.BlindBoardMasksEveryCard` | App.tsx:413 | In the blind phases every card shows the masked identity, the generic icon, no token count and no footer. Outside them every card is unmasked. |
| `Board.RingPredecessor` | App.tsx:157-158 | The predecessor of position j is the reviewer whose ring target is the persona at j. |
| `Board.RingReviewOf` | App.tsx:411-412 | In a ring-paired batch over a duplicate-free order, the review a card finds was written by its predecessor. |
| `Board.CardOfRingSession` | App.tsx:404-415 | In a complete ring-reviewed session, the card of any answered persona is unmasked and has a footer whose reviewer is its predecessor. |
| `Board.CompleteSessionShowsRing` | App.tsx:404-415 | Every card of a complete ring-reviewed session shows its predecessor's review, in the catalog layout and in the shuffled one. |
| `Board.CompletedBoardShowsRing` | App.tsx:402-415 | After a completed run over a duplicate-free selection, the board holds one card per selected persona. Each card shows the review by its predecessor in the shuffled order, in either layout. In the shuffled layout the cards sit in exactly the shuffled order. |

## Left out

- Backend calls, `JSON.parse` and `localStorage` are foreign I/O. Their outcomes are inputs: `Gemini.GenReply`, `Gemini.ReviewReply`, `Storage.Blob` and the `writeSucceeds` flag. JSON serialisation of stored sessions is assumed to round-trip.
- `Storage.GetHistory`: stored text that parses to JSON other than a list (`null`, `{}`, a number) is not modelled. The code returns such a value as it is (services/storage.ts:40), and the next save then throws at services/storage.ts:12, outside its `try`. The model only reads an empty store, a list of sessions or text that is not JSON.
- Timers (the 2 s shuffle delay, the random 0.5–1.5 s review delay, the 1.5 s grading delay) and `Promise.all` scheduling are left out. Each batch is one atomic join, and each delay is one event.
- `Math.random` shuffling is an arbitrary permutation supplied by the caller. There is no claim of uniformity.
- `Orchestrator.RunSession`: a rejected generation batch is taken as an input (`GenRejected`). The modelled client swallows every error, so nothing in the model produces it.
- `Gemini.ReviewAndGradeResponse`: only string or absent critiques are modelled, as the response schema requires. A truthy non-string critique (a number or an object), which the code would pass through, is not modelled.
- Scores are `real`. IEEE double behaviour (NaN, infinities, rounding) is not modelled, and neither is the `-Infinity`/`RangeError` behaviour of `Math.max` beyond the empty case.
- `ModelCard.ShowsTokenCount`: the token estimate (`length / 4` with `toFixed(0)`) is floating-point formatting. Only whether the count is shown is modelled.
- The spoken announcement text, the speech rate and the presence check for speech synthesis are left out. `Announcer.AnnounceWinner` gives the winner, its name and its score.
- Date formatting of the history stamp (`toLocaleDateString`) is left out. The entry carries the raw stamp.
- Voice recording, transcription, file and image uploads (`services/api.ts` and the `MediaRecorder` logic) are simulated platform I/O. A staged upload is an input. `handleStart` stops an active recording (App.tsx:119), and the recorder's stop handler later appends the transcript to the text box (App.tsx:189-200). That later text-box change is left out, so `Orchestrator.Submit` keeps the text box as typed.
- `Orchestrator.RunSession`: models an uninterrupted run. Nothing else happens between its steps: no history pick (see Findings for what one does), no late transcript and no second submission.
- `components/CpuIcon.tsx` (SVG), `components/LoginPage.tsx` (a cosmetic gate) and all JSX layout, styling, scrolling and review-expansion state are left out.
- The catalog keeps each persona's system-prompt style in its own lookup (`Catalog.Style`) instead of in the profile record. The text is the same.
- `MAX_TOKENS_PER_RESPONSE` in `constants.ts` is never used by the code and is left out.
- Concurrent tabs writing the same storage key are left out.

## Findings

| source | as written | input that shows it | evidently intended | confidence | as-written member | corrected member |
|---|---|---|---|---|---|---|
| App.tsx:301-304 | The history panel's entries stay clickable during a run, and a click replaces the shown session. The run's later updates (App.tsx:140, 144, 170, 171) modify whatever session is shown. | A run is generating, and the user opens the log and chooses a completed session. The run finishes on that session, and the completion effect (App.tsx:63-69) overwrites the logged entry with the old id and prompt but the new answers and reviews. | A run's results are logged under the run's own id and prompt, and earlier log entries are not rewritten. Locking the panel while a run is in flight, like the persona buttons and the submit button, achieves this. A session parked by a failed review batch is not in flight, so the panel stays its way out. | medium; not executed | `Orchestrator.SelectFromHistoryAsWritten`, `Orchestrator.MidRunPickMergesRunIntoLog` | `Orchestrator.SelectFromHistory`, `Orchestrator.LockedPanelKeepsRun`, `Orchestrator.PanelFreesParkedSession` |
| App.tsx:404 | The board lays the cards out in catalog order. The shuffled order stored at App.tsx:144 is never read for layout, so during the blind phases a masked card's position names its persona. | Any run in which Gemini answered: during shuffling, reviewing and grading, Gemini's masked card is always the first one, whatever the shuffle. | The shuffle decides where each card sits, so that the masked cards cannot be told apart by position. | low; not executed | `Board.Cards`, `Board.CatalogLayoutIgnoresShuffle` | `Board.ShuffledCards`, `Board.AnyPersonaAnyPosition`, `Board.ShuffledLayoutFollowsOrder` |

=== FILE: announcer.dfy ===
/**
 * The winner announcement made when a session completes: the reviews are
 * sorted by score, highest first, with the platform's stable sort, and the
 * first of them names the winning persona. Ties keep review order, so the
 * announced winner is the first review with the highest score, which is
 * also the review the history panel's badge picks.
 */
module Announcer {
  import opened Types
  import Catalog
  import HistorySidebar

  /** Scores never increase along the sequence. */
  predicate SortedByScoreDesc(rs: seq<Review>) {
    forall i, j :: 0 <= i < j < |rs| ==> rs[i].score >= rs[j].score
  }

  /** Insert `r`, which precedes every element of `sorted` in the original
      order, after the elements scoring strictly more and before the rest. */
  function InsertByScore(r: Review, sorted: seq<Review>): (out: seq<Review>)
    ensures |out| == |sorted| + 1
    ensures multiset(out) == multiset(sorted) + multiset{r}
    ensures forall i :: 0 <= i < |out| ==> out[i] == r || out[i] in sorted
  {
    if |sorted| == 0 || sorted[0].score <= r.score then [r] + sorted
    else
      assert sorted == [sorted[0]] + sorted[1..];
      [sorted[0]] + InsertByScore(r, sorted[1..])
  }

  /** A copy of the reviews sorted by score, highest first; the sort is
      stable, so reviews with equal scores keep their relative order. */
  function SortByScoreDesc(rs: seq<Review>): (out: seq<Review>)
    ensures |out| == |rs|
    ensures multiset(out) == multiset(rs)
  {
    if |rs| == 0 then []
    else
      assert rs == [rs[0]] + rs[1..];
      InsertByScore(rs[0], SortByScoreDesc(rs[1..]))
  }

  lemma {:induction false} InsertKeepsSorted(r: Review, sorted: seq<Review>)
    requires SortedByScoreDesc(sorted)
    ensures SortedByScoreDesc(InsertByScore(r, sorted))
  {
    if |sorted| > 0 && sorted[0].score > r.score {
      InsertKeepsSorted(r, sorted[1..]);
      var rest := InsertByScore(r, sorted[1..]);
      forall j | 0 <= j < |rest| ensures rest[j].score <= sorted[0].score {
        if rest[j] != r {
          var m :| 0 <= m < |sorted[1..]| && sorted[1..][m] == rest[j];
          assert sorted[m + 1] == rest[j];
        }
      }
    }
  }

  /** The sort orders reviews from the highest score to the lowest. */
  lemma {:induction false} SortIsSorted(rs: seq<Review>)
    ensures SortedByScoreDesc(SortByScoreDesc(rs))
  {
    if |rs| > 0 {
      SortIsSorted(rs[1..]);
      InsertKeepsSorted(rs[0], SortByScoreDesc(rs[1..]));
    }
  }

  /** The first element after an insertion: `r` when the list is empty or
      its head does not outscore `r`, the old head otherwise. */
  lemma InsertHead(r: Review, sorted: seq<Review>)
    ensures InsertByScore(r, sorted)[0] ==
      if |sorted| == 0 || sorted[0].score <= r.score then r else sorted[0]
  {
  }

  /**
   * Stability at the insertion point: inserting into a descending list puts
   * the new review in front, with the list after it unchanged, exactly when
   * no element of the list scores strictly more than it.
   */
  lemma {:induction false} InsertLeadsIffNoneHigher(r: Review, sorted: seq<Review>)
    requires SortedByScoreDesc(sorted)
    ensures (forall j :: 0 <= j < |sorted| ==> sorted[j].score <= r.score)
            <==> InsertByScore(r, sorted) == [r] + sorted
  {
    if |sorted| > 0 && sorted[0].score > r.score {
      assert InsertByScore(r, sorted)[0] == sorted[0];
      assert ([r] + sorted)[0] == r;
    }
  }

  /** A first maximum of the tail that beats the head is the first maximum
      of the whole sequence, one position further on. */
  lemma FirstMaxOfTail(rs: seq<Review>, k: nat)
    requires |rs| > 1 && HistorySidebar.IsFirstMax(rs[1..], k) && rs[k + 1].score > rs[0].score
    ensures HistorySidebar.IsFirstMax(rs, k + 1)
  {
    forall j | 0 < j < |rs| ensures rs[j] == rs[1..][j - 1] { }
  }

  /** A head that no tail element beats is the first maximum. */
  lemma FirstMaxAtHead(rs: seq<Review>, k: nat)
    requires |rs| > 1 && HistorySidebar.IsFirstMax(rs[1..], k) && rs[k + 1].score <= rs[0].score
    ensures HistorySidebar.IsFirstMax(rs, 0)
  {
    forall j | 0 < j < |rs| ensures rs[j].score <= rs[0].score {
      assert rs[j] == rs[1..][j - 1];
    }
  }

  /** The head of the stable descending sort is the first review that has
      the highest score. */
  lemma {:induction false} SortHeadIsFirstMax(rs: seq<Review>)
    requires |rs| > 0
    ensures SortByScoreDesc(rs)[0] == rs[HistorySidebar.WinnerIndex(rs).value]
  {
    if |rs| == 1 {
      HistorySidebar.WinnerDeterministic(rs, 0);
    } else {
      var tail := rs[1..];
      SortHeadIsFirstMax(tail);
      var k := HistorySidebar.WinnerIndex(tail).value;
      InsertHead(rs[0], SortByScoreDesc(tail));
      assert tail[k] == rs[k + 1];
      if rs[k + 1].score <= rs[0].score {
        FirstMaxAtHead(rs, k);
        HistorySidebar.WinnerDeterministic(rs, 0);
      } else {
        FirstMaxOfTail(rs, k);
        HistorySidebar.WinnerDeterministic(rs, k + 1);
      }
    }
  }

  /** What is spoken: the winner's catalog name and its score. */
  datatype Announcement = Announcement(winner: ModelId, winnerName: string, score: real)

  /**
   * `announceWinner`: nothing for a session without reviews; otherwise the
   * persona that the top review of the sorted list is about, with that
   * review's score, which no review exceeds.
   */
  function AnnounceWinner(s: SessionState): (a: Option<Announcement>)
    ensures a.None? <==> |s.reviews| == 0
    ensures a.Some? ==> forall j :: 0 <= j < |s.reviews| ==> s.reviews[j].score <= a.value.score
    ensures a.Some? ==>
      (exists j :: 0 <= j < |s.reviews| &&
         s.reviews[j].targetModelId == a.value.winner && s.reviews[j].score == a.value.score)
    ensures a.Some? ==> a.value.winnerName == Catalog.Profile(a.value.winner).name
  {
    if |s.reviews| == 0 then None
    else
      var top := SortByScoreDesc(s.reviews)[0];
      SortHeadIsFirstMax(s.reviews);
      Some(Announcement(top.targetModelId, Catalog.Profile(top.targetModelId).name, top.score))
  }

  /** The spoken winner and the history badge always name the same persona:
      both pick the first review with the highest score. */
  lemma AnnouncementMatchesBadge(s: SessionState)
    ensures AnnounceWinner(s).Some? <==> HistorySidebar.EntryFor(s).winner.Some?
    ensures AnnounceWinner(s).Some? ==>
      HistorySidebar.EntryFor(s).winner.value == Catalog.Profile(AnnounceWinner(s).value.winner)
  {
    if |s.reviews| > 0 {
      SortHeadIsFirstMax(s.reviews);
    }
  }
}

=== FILE: board.dfy ===
/**
 * The board of answer cards in the console. It is shown once a run has
 * started or answers exist, and holds one card per persona that has an
 * answer, in the catalog's declaration order. Each card gets that persona's
 * answer, the first review written about it and that review's author. The
 * card is masked during the three blind phases, and it is highlighted when
 * a completed session gave it a perfect score.
 */
module Board {
  import opened Types
  import ModelCard
  import Submission
  import Orchestrator
  import Gemini

  /** Whether `status` is one of the three blind phases (shuffling,
      reviewing, grading), in which cards are masked. */
  function IsBlindPhase(status: Status): (b: bool)
    ensures b <==> Orchestrator.InputLocked(status) && status != Generating
  {
    status == Shuffling || status == Reviewing || status == Grading
  }

  /** The position of the first review written about `id`. */
  function FirstReviewIndex(rs: seq<Review>, id: ModelId): (k: Option<nat>)
    ensures k.None? <==> forall j :: 0 <= j < |rs| ==> rs[j].targetModelId != id
    ensures k.Some? ==> k.value < |rs| && rs[k.value].targetModelId == id
    ensures k.Some? ==> forall j :: 0 <= j < k.value ==> rs[j].targetModelId != id
  {
    if |rs| == 0 then None
    else if rs[0].targetModelId == id then Some(0)
    else
      match FirstReviewIndex(rs[1..], id)
      case None => None
      case Some(k) => Some(k + 1)
  }

  /** The first review written about `id`, if any. */
  function FindReviewOf(rs: seq<Review>, id: ModelId): (r: Option<Review>)
    ensures r.None? <==> id !in TargetIds(rs)
    ensures r.Some? ==> r.value.targetModelId == id && r.value in rs
  {
    match FirstReviewIndex(rs, id)
    case None =>
      assert forall j :: 0 <= j < |rs| ==> TargetIds(rs)[j] != id;
      None
    case Some(k) => Some(rs[k])
  }

  /** The ids in `ids` that have an answer, in the order of `ids`. */
  function Answered(ids: seq<ModelId>, gens: seq<GenerationResult>): (r: seq<ModelId>)
    ensures forall id :: id in r <==> id in ids && id in GenerationIds(gens)
    ensures |r| <= |ids|
  {
    if |ids| == 0 then []
    else if ids[0] in GenerationIds(gens) then [ids[0]] + Answered(ids[1..], gens)
    else Answered(ids[1..], gens)
  }

  /** Filtering keeps a duplicate-free list duplicate-free. */
  lemma {:induction false} AnsweredDistinct(ids: seq<ModelId>, gens: seq<GenerationResult>)
    requires Distinct(ids)
    ensures Distinct(Answered(ids, gens))
  {
    if |ids| > 0 {
      assert Distinct(ids[1..]);
      AnsweredDistinct(ids[1..], gens);
      assert ids[0] !in ids[1..];
    }
  }

  /** What the board hands one card, and whether its frame is highlighted. */
  datatype Slot = Slot(props: ModelCard.CardProps, highlighted: bool)

  /** The card for persona `id` of session `s`. */
  function SlotFor(s: SessionState, id: ModelId): (slot: Slot)
    ensures slot.props.modelId == id && slot.props.status == s.status
    ensures slot.props.anonymized <==> IsBlindPhase(s.status)
    ensures slot.props.generation == Orchestrator.FindGeneration(s.generations, id)
    ensures slot.props.review == FindReviewOf(s.reviews, id)
    ensures slot.props.reviewerId.Some? <==> slot.props.review.Some?
    ensures slot.props.reviewerId.Some? ==> slot.props.reviewerId.value == slot.props.review.value.reviewerId
    ensures slot.highlighted <==>
      s.status == Complete && slot.props.review.Some? && slot.props.review.value.score == 10.0
  {
    var review := FindReviewOf(s.reviews, id);
    var reviewer := match review
      case None => None
      case Some(r) => Some(r.reviewerId);
    var props := ModelCard.CardProps(id, Orchestrator.FindGeneration(s.generations, id),
                                     review, reviewer, IsBlindPhase(s.status), s.status);
    Slot(props, s.status == Complete && review.Some? && review.value.score == 10.0)
  }

  /** The board is on screen once a run has started or answers exist. */
  function Shown(s: SessionState): (b: bool)
    ensures b <==> s.status != Idle || s.generations != []
  {
    s.status != Idle || |s.generations| > 0
  }

  /** The board: one card per answered persona, in declaration order. */
  function Cards(s: SessionState): (cards: seq<Slot>)
    ensures |cards| == |Answered(AllModelIds, s.generations)|
    ensures forall i :: 0 <= i < |cards| ==>
      cards[i] == SlotFor(s, Answered(AllModelIds, s.generations)[i])
  {
    var ids := Answered(AllModelIds, s.generations);
    seq(|ids|, i requires 0 <= i < |ids| => SlotFor(s, ids[i]))
  }

  /**
   * The board as evidently intended: one card per answered persona, laid
   * out in the session's presentation order, so that the shuffle decides
   * where each persona's card sits.
   */
  function ShuffledCards(s: SessionState): (cards: seq<Slot>)
    ensures |cards| == |Answered(s.anonymizedOrder, s.generations)|
    ensures forall i :: 0 <= i < |cards| ==>
      cards[i] == SlotFor(s, Answered(s.anonymizedOrder, s.generations)[i])
  {
    var ids := Answered(s.anonymizedOrder, s.generations);
    seq(|ids|, i requires 0 <= i < |ids| => SlotFor(s, ids[i]))
  }

  /** When every persona of `ids` has an answer, filtering keeps them all. */
  lemma {:induction false} AnsweredKeepsAll(ids: seq<ModelId>, gens: seq<GenerationResult>)
    requires forall id :: id in ids ==> id in GenerationIds(gens)
    ensures Answered(ids, gens) == ids
  {
    if |ids| > 0 {
      assert ids[0] in ids;
      assert forall id :: id in ids[1..] ==> id in ids;
      AnsweredKeepsAll(ids[1..], gens);
      assert ids == [ids[0]] + ids[1..];
    }
  }

  /** The order with positions `j` and `k` exchanged. */
  function Swap(order: seq<ModelId>, j: nat, k: nat): (r: seq<ModelId>)
    requires j < |order| && k < |order|
    ensures |r| == |order| && r[k] == order[j] && r[j] == order[k]
    ensures forall i :: 0 <= i < |order| && i != j && i != k ==> r[i] == order[i]
    ensures multiset(r) == multiset(order)
  {
    order[j := order[k]][k := order[j]]
  }

  /**
   * The code as written: the layout ignores the presentation order. Any
   * shuffle gives the same board, and whenever Gemini answered, its card
   * is first, masked or not.
   */
  lemma CatalogLayoutIgnoresShuffle(s: SessionState, o: seq<ModelId>)
    ensures Cards(s.(anonymizedOrder := o)) == Cards(s)
    ensures Gemini in GenerationIds(s.generations) ==>
      |Cards(s)| > 0 && Cards(s)[0].props.modelId == Gemini
      && (Cards(s)[0].props.anonymized <==> IsBlindPhase(s.status))
  {
    var ids := Answered(AllModelIds, s.generations);
    var s' := s.(anonymizedOrder := o);
    assert |Cards(s')| == |Cards(s)|;
    forall i | 0 <= i < |Cards(s)| ensures Cards(s')[i] == Cards(s)[i] {
      assert SlotFor(s', ids[i]) == SlotFor(s, ids[i]);
    }
    if Gemini in GenerationIds(s.generations) {
      assert AllModelIds == [Gemini] + AllModelIds[1..];
      assert ids == [Gemini] + Answered(AllModelIds[1..], s.generations);
    }
  }

  /** With the shuffled layout and every persona of the order answered, the
      card at position `k` belongs to the persona at position `k` of the
      order. */
  lemma ShuffledLayoutFollowsOrder(s: SessionState)
    requires forall id :: id in s.anonymizedOrder ==> id in GenerationIds(s.generations)
    ensures |ShuffledCards(s)| == |s.anonymizedOrder|
    ensures forall k :: 0 <= k < |ShuffledCards(s)| ==>
      ShuffledCards(s)[k].props.modelId == s.anonymizedOrder[k]
  {
    AnsweredKeepsAll(s.anonymizedOrder, s.generations);
  }

  /**
   * With the shuffled layout, a position says nothing about the persona:
   * for any answered persona of the order (at `j`) and any position `k`,
   * some reordering of the same personas puts that persona's card at `k`.
   */
  lemma AnyPersonaAnyPosition(s: SessionState, j: nat, k: nat)
    requires forall id :: id in s.anonymizedOrder ==> id in GenerationIds(s.generations)
    requires j < |s.anonymizedOrder| && k < |s.anonymizedOrder|
    ensures var o := Swap(s.anonymizedOrder, j, k);
      && multiset(o) == multiset(s.anonymizedOrder)
      && k < |ShuffledCards(s.(anonymizedOrder := o))|
      && ShuffledCards(s.(anonymizedOrder := o))[k].props.modelId == s.anonymizedOrder[j]
  {
    var o := Swap(s.anonymizedOrder, j, k);
    var s' := s.(anonymizedOrder := o);
    forall id | id in o ensures id in GenerationIds(s'.generations) {
      assert id in multiset(s.anonymizedOrder);
    }
    ShuffledLayoutFollowsOrder(s');
  }

  /** The shuffled board shows exactly the personas that answered, each
      once, whatever the order, provided the order holds every answered
      persona once. */
  lemma ShuffledCardsAreTheAnswers(s: SessionState)
    requires Distinct(s.anonymizedOrder)
    requires forall id :: id in GenerationIds(s.generations) ==> id in s.anonymizedOrder
    ensures forall id :: (exists i :: 0 <= i < |ShuffledCards(s)| && ShuffledCards(s)[i].props.modelId == id)
                         <==> id in GenerationIds(s.generations)
    ensures forall i, j :: 0 <= i < j < |ShuffledCards(s)| ==>
      ShuffledCards(s)[i].props.modelId != ShuffledCards(s)[j].props.modelId
  {
    var ids := Answered(s.anonymizedOrder, s.generations);
    AnsweredDistinct(s.anonymizedOrder, s.generations);
    forall id | id in GenerationIds(s.generations)
      ensures exists i :: 0 <= i < |ShuffledCards(s)| && ShuffledCards(s)[i].props.modelId == id
    {
      var i :| 0 <= i < |ids| && ids[i] == id;
      assert ShuffledCards(s)[i].props.modelId == id;
    }
  }

  /** The board shows exactly the personas that answered, each once, and
      every card has its persona's answer. */
  lemma CardsAreTheAnswers(s: SessionState)
    ensures forall id :: (exists i :: 0 <= i < |Cards(s)| && Cards(s)[i].props.modelId == id)
                         <==> id in GenerationIds(s.generations)
    ensures forall i, j :: 0 <= i < j < |Cards(s)| ==> Cards(s)[i].props.modelId != Cards(s)[j].props.modelId
    ensures forall i :: 0 <= i < |Cards(s)| ==> Cards(s)[i].props.generation.Some?
  {
    AllModelIdsComplete();
    var ids := Answered(AllModelIds, s.generations);
    AnsweredDistinct(AllModelIds, s.generations);
    forall id | id in GenerationIds(s.generations)
      ensures exists i :: 0 <= i < |Cards(s)| && Cards(s)[i].props.modelId == id
    {
      var i :| 0 <= i < |ids| && ids[i] == id;
      assert Cards(s)[i].props.modelId == id;
    }
  }

  /**
   * During the blind phases every card shows the masked identity, the
   * generic icon, no token count and no footer; outside them every card
   * shows its persona's identity. (Where a card sits is another matter: see
   * `CatalogLayoutIgnoresShuffle`.)
   */
  lemma BlindBoardMasksEveryCard(s: SessionState)
    ensures IsBlindPhase(s.status) ==> forall i :: 0 <= i < |Cards(s)| ==>
      var v := ModelCard.RenderCard(Cards(s)[i].props);
      && v.identity == ModelCard.Identity(ModelCard.MaskedName, ModelCard.MaskedColor, ModelCard.MaskedProvider)
      && v.icon == ModelCard.GenericIcon
      && v.footer.None?
      && !v.showsTokenCount
    ensures !IsBlindPhase(s.status) ==> forall i :: 0 <= i < |Cards(s)| ==>
      var id := Cards(s)[i].props.modelId;
      ModelCard.RenderCard(Cards(s)[i].props).identity == ModelCard.DisplayIdentity(id, false)
  {
  }

  /** The reviewer of the persona at position `j` of a ring order: the one
      before it, the first wrapping round to the last. */
  function RingPredecessor(order: seq<ModelId>, j: nat): (p: ModelId)
    requires j < |order|
    ensures exists i :: 0 <= i < |order| && p == order[i] && Orchestrator.RingTarget(order, i) == order[j]
  {
    var i := if j == 0 then |order| - 1 else j - 1;
    assert Orchestrator.RingTarget(order, i) == order[j];
    order[i]
  }

  /** In a ring-paired review batch over a duplicate-free order, the first
      (and only) review about `order[j]` is the one its predecessor wrote. */
  lemma RingReviewOf(rs: seq<Review>, order: seq<ModelId>, j: nat)
    requires Distinct(order) && j < |order|
    requires ReviewerIds(rs) == order
    requires TargetIds(rs) == order[1..] + order[..1]
    ensures FindReviewOf(rs, order[j]).Some?
    ensures FindReviewOf(rs, order[j]).value.reviewerId == RingPredecessor(order, j)
  {
    var n := |order|;
    var i := if j == 0 then n - 1 else j - 1;
    RotatedTarget(rs, order, i);
    var k := FirstReviewIndex(rs, order[j]).value;
    RotatedTarget(rs, order, k);
    var tk := if k + 1 < n then k + 1 else 0;
    assert order[tk] == order[j];
    assert tk == j;
    assert k == i;
    assert rs[i].reviewerId == order[i];
  }

  /** Review `m` of a ring-paired batch is about the next persona. */
  lemma RotatedTarget(rs: seq<Review>, order: seq<ModelId>, m: nat)
    requires |order| > 0 && m < |order| && TargetIds(rs) == order[1..] + order[..1]
    ensures rs[m].targetModelId == if m + 1 < |order| then order[m + 1] else order[0]
  {
    assert TargetIds(rs)[m] == rs[m].targetModelId;
  }

  /** A permutation of a duplicate-free list is duplicate-free. */
  lemma PermutationDistinct(a: seq<ModelId>, b: seq<ModelId>)
    requires Distinct(a) && multiset(a) == multiset(b)
    ensures Distinct(b)
  {
    forall i, j | 0 <= i < j < |b| ensures b[i] != b[j] {
      if b[i] == b[j] {
        var x := b[i];
        assert b == b[..j] + b[j..];
        assert x in b[..j] && x in b[j..];
        assert multiset(b)[x] >= 2;
        DistinctCountsOnce(a, x);
      }
    }
  }

  /** In a duplicate-free list every element occurs at most once. */
  lemma {:induction false} DistinctCountsOnce(a: seq<ModelId>, x: ModelId)
    requires Distinct(a)
    ensures multiset(a)[x] <= 1
  {
    if |a| > 0 {
      assert a == [a[0]] + a[1..];
      assert Distinct(a[1..]);
      DistinctCountsOnce(a[1..], x);
      if a[0] == x {
        assert x !in a[1..];
      }
    }
  }

  /** The card is unmasked and carries a footer whose review was written by
      the persona before it in the ring `order`. */
  predicate CardShowsRing(p: ModelCard.CardProps, order: seq<ModelId>) {
    && !p.anonymized
    && p.reviewerId.Some?
    && (exists j :: 0 <= j < |order| && order[j] == p.modelId
                    && p.reviewerId.value == RingPredecessor(order, j))
    && ModelCard.RenderCard(p).footer.Some?
  }

  /** Every card of a board shows its ring predecessor's review. */
  predicate ShowsRing(cards: seq<Slot>, order: seq<ModelId>) {
    forall i :: 0 <= i < |cards| ==> CardShowsRing(cards[i].props, order)
  }

  /** In a complete session whose reviews were ring-paired over its
      duplicate-free order, the card of any answered persona shows its
      predecessor's review. */
  lemma CardOfRingSession(s: SessionState, id: ModelId)
    requires s.status == Complete && |s.anonymizedOrder| > 0 && Distinct(s.anonymizedOrder)
    requires ReviewerIds(s.reviews) == s.anonymizedOrder
    requires TargetIds(s.reviews) == s.anonymizedOrder[1..] + s.anonymizedOrder[..1]
    requires forall id :: id in GenerationIds(s.generations) ==> id in s.anonymizedOrder
    requires id in GenerationIds(s.generations)
    ensures CardShowsRing(SlotFor(s, id).props, s.anonymizedOrder)
  {
    var order := s.anonymizedOrder;
    var p := SlotFor(s, id).props;
    var j :| 0 <= j < |order| && order[j] == id;
    RingReviewOf(s.reviews, order, j);
    assert p.review == FindReviewOf(s.reviews, id);
    assert ModelCard.RenderCard(p).footer == ModelCard.ReviewFooter(p.review, p.reviewerId, Complete);
  }

  /** A complete session whose reviews were ring-paired over its
      duplicate-free order shows, on each card, the predecessor's review,
      in the catalog layout and in the shuffled one alike. */
  lemma CompleteSessionShowsRing(s: SessionState)
    requires s.status == Complete && |s.anonymizedOrder| > 0 && Distinct(s.anonymizedOrder)
    requires ReviewerIds(s.reviews) == s.anonymizedOrder
    requires TargetIds(s.reviews) == s.anonymizedOrder[1..] + s.anonymizedOrder[..1]
    requires forall id :: id in GenerationIds(s.generations) ==> id in s.anonymizedOrder
    ensures ShowsRing(Cards(s), s.anonymizedOrder)
    ensures ShowsRing(ShuffledCards(s), s.anonymizedOrder)
  {
    var catalog := Answered(AllModelIds, s.generations);
    var shuffled := Answered(s.anonymizedOrder, s.generations);
    forall i | 0 <= i < |Cards(s)| ensures CardShowsRing(Cards(s)[i].props, s.anonymizedOrder) {
      assert catalog[i] in catalog;
      CardOfRingSession(s, catalog[i]);
    }
    forall i | 0 <= i < |ShuffledCards(s)| ensures CardShowsRing(ShuffledCards(s)[i].props, s.anonymizedOrder) {
      assert shuffled[i] in shuffled;
      CardOfRingSession(s, shuffled[i]);
    }
  }

  /**
   * After a completed run over a duplicate-free selection, the board holds
   * one card per selected persona, and each card's footer shows the review
   * written by the persona before it in the shuffled order. In the shuffled
   * layout the cards sit in exactly the shuffled order.
   */
  lemma CompletedBoardShowsRing(c: Orchestrator.Console, newId: string, calls: seq<Orchestrator.GenCall>,
                                shuffled: seq<ModelId>, replies: seq<Gemini.ReviewReply>)
    requires !Submission.SubmitRejected(c.input, c.media)
    requires |calls| == |c.selection| && |replies| == |shuffled|
    requires |c.selection| > 0 && Distinct(c.selection)
    requires multiset(shuffled) == multiset(c.selection)
    ensures var trace := Orchestrator.RunSession(c, newId, Orchestrator.GenSettled(calls), shuffled, replies);
      && |trace| == 5
      && Shown(trace[4])
      && (forall id :: (exists i :: 0 <= i < |Cards(trace[4])| && Cards(trace[4])[i].props.modelId == id)
                       <==> id in c.selection)
      && ShowsRing(Cards(trace[4]), shuffled)
      && ShowsRing(ShuffledCards(trace[4]), shuffled)
      && |ShuffledCards(trace[4])| == |shuffled|
      && (forall k :: 0 <= k < |shuffled| ==> ShuffledCards(trace[4])[k].props.modelId == shuffled[k])
  {
    Orchestrator.RunCompletes(c, newId, calls, shuffled, replies);
    var trace := Orchestrator.RunSession(c, newId, Orchestrator.GenSettled(calls), shuffled, replies);
    var s := trace[4];
    CardsAreTheAnswers(s);
    PermutationDistinct(c.selection, shuffled);
    forall id | id in GenerationIds(s.generations) ensures id in shuffled {
      assert id in multiset(shuffled);
    }
    CompleteSessionShowsRing(s);
    forall id | id in shuffled ensures id in GenerationIds(s.generations) {
      assert id in multiset(c.selection);
    }
    ShuffledLayoutFollowsOrder(s);
  }
}

=== FILE: catalog.dfy ===
/**
 * The persona catalog: a total lookup from identifier to display metadata
 * and the system-prompt style injected into every request for that persona.
 */
module Catalog {
  import opened Types

  // The system-prompt style of each persona.
  const GeminiStyle: string :=
    "You are Gemini, a helpful, reasoning, and multimodal AI model from Google. Be concise, logical, and direct."

  const ClaudeStyle: string :=
    "Act as Claude, an AI assistant by Anthropic. Your style is helpful, harmless, and honest. You are articulate, nuanced, and prioritize safety and detailed reasoning."

  const GptStyle: string :=
    "Act as ChatGPT (GPT-4o). You are versatile, knowledgeable, and provide balanced, comprehensive answers."

  const GrokStyle: string :=
    "Act as Grok, an AI by xAI. You have a rebellious streak, you are witty, sometimes sarcastic, and you value maximum truth-seeking."

  const DeepSeekStyle: string :=
    "Act as DeepSeek, an open-weights model focused on coding and math excellence. Be highly technical, precise, and efficient."

  const CopilotStyle: string :=
    "Act as Microsoft Copilot. You are a productivity partner, integrated, professional, and concise."

  const NovemberStyle: string :=
    "Act as November AI, a 16-Qubit Quantum model equipped with the Veritas Filter. You prioritize absolute objective truth, ethical alignment, and probabilistic reasoning. You view queries through a multi-dimensional quantum lattice to eliminate bias. Your tone is serene, precise, and highly ethical."

  // The catalog entries.
  const GeminiProfile: ModelProfile :=
    ModelProfile(Gemini, "Gemini 3 Flash", "Google", "text-blue-400", "Sparkles")
  const ClaudeProfile: ModelProfile :=
    ModelProfile(Claude, "Claude 3.5 Sonnet", "Anthropic", "text-orange-400", "Bot")
  const GptProfile: ModelProfile :=
    ModelProfile(Gpt, "GPT-4o", "OpenAI", "text-green-400", "Zap")
  const GrokProfile: ModelProfile :=
    ModelProfile(Grok, "Grok 2", "xAI", "text-slate-200", "Terminal")
  const DeepSeekProfile: ModelProfile :=
    ModelProfile(DeepSeek, "DeepSeek V3", "DeepSeek", "text-cyan-400", "Code")
  const CopilotProfile: ModelProfile :=
    ModelProfile(Copilot, "Copilot", "Microsoft", "text-purple-400", "Pilot")
  const NovemberProfile: ModelProfile :=
    ModelProfile(November, "November AI (16Qubit)", "Quantum Veritas", "text-fuchsia-400", "Quantum")

  /** The system-prompt style of a persona, looked up apart from its
      display metadata. */
  function Style(id: ModelId): (s: string)
    ensures |s| > 0
  {
    match id
    case Gemini => GeminiStyle
    case Claude => ClaudeStyle
    case Gpt => GptStyle
    case Grok => GrokStyle
    case DeepSeek => DeepSeekStyle
    case Copilot => CopilotStyle
    case November => NovemberStyle
  }

  /** The catalog entry of a persona; every identifier has exactly one. */
  function Profile(id: ModelId): (p: ModelProfile)
    ensures p.id == id
  {
    match id
    case Gemini => GeminiProfile
    case Claude => ClaudeProfile
    case Gpt => GptProfile
    case Grok => GrokProfile
    case DeepSeek => DeepSeekProfile
    case Copilot => CopilotProfile
    case November => NovemberProfile
  }

  /** Display names tell the personas apart: the name identifies the persona. */
  lemma ProfileNamesDistinct(a: ModelId, b: ModelId)
    ensures Profile(a).name == Profile(b).name <==> a == b
  {
  }
}

=== FILE: gemini.dfy ===
/**
 * The completion and review clients. Each builds one request for the shared
 * backend and turns whatever the backend did (returned text, returned
 * nothing, threw, returned JSON) into an ordinary result: no failure ever
 * reaches the caller as an error. The backend call itself is an input.
 */
module Gemini {
  import opened Types
  import Catalog

  const BackendModel: string := "gemini-3-flash-preview"
  const Temperature: real := 0.7
  const LengthConstraint: string := " Keep your response under 150 words."

  const NoResponseText: string := "No response generated."
  const ConnectionFailedText: string := "Connection failed. System offline."
  const AnalysisFailedText: string := "Analysis failed."
  const ReviewInterruptedText: string := "Review process interrupted."

  const JsonMimeType: string := "application/json"
  const ReviewPreamble: string := "Review the following text provided by an anonymous AI model:\n\n\""
  const ReviewInstructions: string := "\"\n\nCritique it based on accuracy, clarity, and style. Then assign a score out of 10."
  const ReviewerRoleOpening: string := "You are acting as "
  const ReviewerRoleClosing: string := " You are conducting a blind peer review. Be critical but fair. Return JSON."

  // ---------------------------------------------------------------------
  // Completion client
  // ---------------------------------------------------------------------

  datatype GenerationRequest = GenerationRequest(
    model: string, contents: string, systemInstruction: string, temperature: real)

  /** What the backend did with one generation request. `GenReturned("")`
      covers both an empty and a missing `text`. */
  datatype GenReply = GenThrew | GenReturned(text: string)

  /** The persona's style text with the length constraint appended. */
  function SystemInstruction(id: ModelId): (r: string)
    ensures |r| == |Catalog.Style(id)| + |LengthConstraint|
    ensures r[..|Catalog.Style(id)|] == Catalog.Style(id)
    ensures r[|Catalog.Style(id)|..] == LengthConstraint
  {
    Catalog.Style(id) + LengthConstraint
  }

  /** The single request issued for a persona: the user's prompt verbatim,
      the persona's instruction, the fixed backend model and temperature. */
  function GenerationRequestFor(id: ModelId, prompt: string): (q: GenerationRequest)
    ensures q.contents == prompt
    ensures q.model == BackendModel && q.temperature == Temperature
    ensures q.systemInstruction == SystemInstruction(id)
  {
    GenerationRequest(BackendModel, prompt, SystemInstruction(id), Temperature)
  }

  /**
   * The result of one generation call, stamped with the clock reading `now`:
   * the returned text, or a fixed sentinel when the text is empty or the
   * call threw. The result always belongs to the requested persona.
   */
  function GeneratePersonaResponse(modelId: ModelId, reply: GenReply, now: int): (g: GenerationResult)
    ensures g.modelId == modelId && g.timestamp == now
    ensures reply.GenThrew? ==> g.content == ConnectionFailedText
    ensures reply.GenReturned? && reply.text == [] ==> g.content == NoResponseText
    ensures reply.GenReturned? && reply.text != [] ==> g.content == reply.text
  {
    match reply
    case GenThrew => GenerationResult(modelId, ConnectionFailedText, now)
    case GenReturned(text) =>
      GenerationResult(modelId, if text != [] then text else NoResponseText, now)
  }

  /** A panel never shows an empty answer: every outcome yields content. */
  lemma GeneratedContentNeverEmpty(modelId: ModelId, reply: GenReply, now: int)
    ensures GeneratePersonaResponse(modelId, reply, now).content != []
  {
    assert |NoResponseText| > 0 && |ConnectionFailedText| > 0;
  }

  // ---------------------------------------------------------------------
  // Review client
  // ---------------------------------------------------------------------

  /** The JSON types a response schema can name. */
  datatype SchemaType = ObjectType | StringType | NumberType

  /** A structured review request. The response schema is an object whose
      `properties` name each field with its type; `requiredFields` lists the
      fields the reply must carry. */
  datatype ReviewRequest = ReviewRequest(
    model: string, contents: string, systemInstruction: string,
    responseMimeType: string, responseType: SchemaType,
    properties: seq<(string, SchemaType)>, requiredFields: seq<string>)

  /** The `score` field of the parsed reply: a JSON number, or anything else
      (absent, a string, null, ...). */
  datatype JsonScore = ScoreNumber(value: real) | ScoreNotNumber

  /**
   * What the backend did with one review request:
   *  - `ReviewThrew`: the call failed, or the text was not JSON, or it
   *    parsed to a value whose fields cannot be read (`null`);
   *  - `ReviewEmptyText`: the call returned no text, which is parsed as `{}`;
   *  - `ReviewParsed`: the text parsed to an object; `critique` is the
   *    field when it is a string, `None` when it is absent.
   */
  datatype ReviewReply =
    | ReviewThrew
    | ReviewEmptyText
    | ReviewParsed(critique: Option<string>, score: JsonScore)

  /** The review prompt carries the target text verbatim, quoted, right
      after a fixed preamble and before fixed grading instructions. */
  function ReviewContents(targetContent: string): (r: string)
    ensures |r| == |ReviewPreamble| + |targetContent| + |ReviewInstructions|
    ensures r[..|ReviewPreamble|] == ReviewPreamble
    ensures r[|ReviewPreamble|..|ReviewPreamble| + |targetContent|] == targetContent
    ensures r[|ReviewPreamble| + |targetContent|..] == ReviewInstructions
  {
    ReviewPreamble + targetContent + ReviewInstructions
  }

  /** The reviewer's role sentence around its name, then its style. */
  function RoleInstruction(name: string, style: string): (r: string)
    ensures |r| > |ReviewerRoleOpening| + |name|
    ensures r[..|ReviewerRoleOpening|] == ReviewerRoleOpening
    ensures r[|ReviewerRoleOpening|..|ReviewerRoleOpening| + |name|] == name
    ensures r[|ReviewerRoleOpening| + |name|..] == ". " + style + ReviewerRoleClosing
  {
    var rest := ". " + style + ReviewerRoleClosing;
    var r := ReviewerRoleOpening + (name + rest);
    assert r[|ReviewerRoleOpening|..] == name + rest;
    r
  }

  /** The reviewer's instruction names the reviewer and carries its style. */
  function ReviewSystemInstruction(reviewerId: ModelId): (r: string)
    ensures var name := Catalog.Profile(reviewerId).name;
      && |r| > |ReviewerRoleOpening| + |name|
      && r[..|ReviewerRoleOpening|] == ReviewerRoleOpening
      && r[|ReviewerRoleOpening|..|ReviewerRoleOpening| + |name|] == name
      && r[|ReviewerRoleOpening| + |name|..] == ". " + Catalog.Style(reviewerId) + ReviewerRoleClosing
  {
    RoleInstruction(Catalog.Profile(reviewerId).name, Catalog.Style(reviewerId))
  }

  /** The single structured request a reviewer issues about a target text. */
  function ReviewRequestFor(reviewerId: ModelId, targetContent: string): (q: ReviewRequest)
    ensures q.model == BackendModel && q.responseMimeType == JsonMimeType
    ensures q.responseType == ObjectType
    ensures q.properties == [("critique", StringType), ("score", NumberType)]
    ensures q.requiredFields == ["critique", "score"]
    ensures forall f :: f in q.requiredFields ==> exists i :: 0 <= i < |q.properties| && q.properties[i].0 == f
    ensures q.contents == ReviewContents(targetContent)
    ensures q.systemInstruction == ReviewSystemInstruction(reviewerId)
  {
    var properties := [("critique", StringType), ("score", NumberType)];
    assert properties[0].0 == "critique" && properties[1].0 == "score";
    ReviewRequest(BackendModel, ReviewContents(targetContent), ReviewSystemInstruction(reviewerId),
                  JsonMimeType, ObjectType, properties, ["critique", "score"])
  }

  /** The critique read from a parsed reply: kept when it is a non-empty
      string, replaced by the failure text when missing or empty. */
  function CritiqueOf(critique: Option<string>): (r: string)
    ensures r != []
    ensures critique.Some? && critique.value != [] ==> r == critique.value
    ensures critique.None? || critique.value == [] ==> r == AnalysisFailedText
  {
    match critique
    case Some(c) => if c != [] then c else AnalysisFailedText
    case None => AnalysisFailedText
  }

  /** The score read from a parsed reply: kept when it is a number, zero
      otherwise. */
  function ScoreOf(score: JsonScore): (r: real)
    ensures score.ScoreNumber? ==> r == score.value
    ensures score.ScoreNotNumber? ==> r == 0.0
  {
    match score
    case ScoreNumber(v) => v
    case ScoreNotNumber => 0.0
  }

  /**
   * The review one reviewer produces. The reviewer is echoed; the target is
   * the placeholder `Gemini`, which the orchestrator overwrites; critique and
   * score come from the parsed reply with fixed fallbacks.
   */
  function ReviewAndGradeResponse(reviewerId: ModelId, reply: ReviewReply): (r: Review)
    ensures r.reviewerId == reviewerId && r.targetModelId == Gemini
    ensures reply.ReviewThrew? ==> r.critique == ReviewInterruptedText && r.score == 0.0
    ensures reply.ReviewEmptyText? ==> r.critique == AnalysisFailedText && r.score == 0.0
    ensures reply.ReviewParsed? ==>
      && (reply.critique.Some? && reply.critique.value != [] ==> r.critique == reply.critique.value)
      && (reply.critique.None? || reply.critique.value == [] ==> r.critique == AnalysisFailedText)
      && (reply.score.ScoreNumber? ==> r.score == reply.score.value)
      && (reply.score.ScoreNotNumber? ==> r.score == 0.0)
  {
    match reply
    case ReviewThrew => Review(reviewerId, Gemini, ReviewInterruptedText, 0.0)
    case ReviewEmptyText => ReviewOfParsed(reviewerId, None, ScoreNotNumber)
    case ReviewParsed(c, s) => ReviewOfParsed(reviewerId, c, s)
  }

  function ReviewOfParsed(reviewerId: ModelId, critique: Option<string>, score: JsonScore): Review {
    Review(reviewerId, Gemini, CritiqueOf(critique), ScoreOf(score))
  }

  /** An empty reply is read exactly like the JSON object `{}`. */
  lemma EmptyTextReadsAsEmptyObject(reviewerId: ModelId)
    ensures ReviewAndGradeResponse(reviewerId, ReviewEmptyText)
         == ReviewAndGradeResponse(reviewerId, ReviewParsed(None, ScoreNotNumber))
  {
  }

  /** A review's critique is never empty, and a score of 0 is all a failed or
      malformed reply can contribute. */
  lemma ReviewFallbacks(reviewerId: ModelId, reply: ReviewReply)
    ensures ReviewAndGradeResponse(reviewerId, reply).critique != []
    ensures !(reply.ReviewParsed? && reply.score.ScoreNumber?) ==>
              ReviewAndGradeResponse(reviewerId, reply).score == 0.0
  {
    assert |AnalysisFailedText| > 0 && |ReviewInterruptedText| > 0;
  }
}

=== FILE: history_sidebar.dfy ===
/**
 * The history panel: nothing when closed, a "no records" notice for an empty
 * log, otherwise one entry per logged session showing its date, its winner
 * badge, its prompt and how many personas took part. The winner badge is
 * the first review whose score equals the highest score.
 */
module HistorySidebar {
  import opened Types
  import Catalog

  /** `rs[k]` has the highest score and no earlier review reaches it. */
  predicate IsFirstMax(rs: seq<Review>, k: int) {
    && 0 <= k < |rs|
    && (forall j :: 0 <= j < |rs| ==> rs[j].score <= rs[k].score)
    && (forall j :: 0 <= j < k ==> rs[j].score < rs[k].score)
  }

  /** At most one position is the first maximum. */
  lemma FirstMaxUnique(rs: seq<Review>, k1: int, k2: int)
    requires IsFirstMax(rs, k1) && IsFirstMax(rs, k2)
    ensures k1 == k2
  {
    var s1, s2 := rs[k1].score, rs[k2].score;
    assert s1 == s2;
  }

  /** The highest score of the reviews, with `None` standing for the
      `-Infinity` that taking the maximum of no scores yields. */
  function MaxScore(rs: seq<Review>): (m: Option<real>)
    ensures m.None? <==> |rs| == 0
    ensures m.Some? ==> exists k :: 0 <= k < |rs| && rs[k].score == m.value
    ensures m.Some? ==> forall j :: 0 <= j < |rs| ==> rs[j].score <= m.value
  {
    if |rs| == 0 then None
    else match MaxScore(rs[1..])
      case None => Some(rs[0].score)
      case Some(m) =>
        assert forall j :: 1 <= j < |rs| ==> rs[j] == rs[1..][j - 1];
        Some(if rs[0].score >= m then rs[0].score else m)
  }

  /** The position of the first review scoring exactly `m`, if any. */
  function FindScore(rs: seq<Review>, m: real): (k: Option<nat>)
    ensures k.None? <==> forall j :: 0 <= j < |rs| ==> rs[j].score != m
    ensures k.Some? ==> k.value < |rs| && rs[k.value].score == m
    ensures k.Some? ==> forall j :: 0 <= j < k.value ==> rs[j].score != m
  {
    if |rs| == 0 then None
    else if rs[0].score == m then Some(0)
    else match FindScore(rs[1..], m)
      case None => None
      case Some(k) => Some(k + 1)
  }

  /** The position of the winning review: none for a session without
      reviews, otherwise the first review with the highest score. */
  function WinnerIndex(rs: seq<Review>): (w: Option<nat>)
    ensures w.None? <==> |rs| == 0
    ensures w.Some? ==> IsFirstMax(rs, w.value)
  {
    match MaxScore(rs)
    case None => None
    case Some(m) => FindScore(rs, m)
  }

  datatype EntryView = EntryView(
    sessionId: string,
    savedAt: Option<int>,
    winner: Option<ModelProfile>,
    prompt: string,
    modelCount: nat)

  datatype SidebarView = Hidden | NoRecords | Entries(entries: seq<EntryView>)

  /** One logged session: the winner badge names the persona that the first
      highest-scoring review was about; the count is the number of answers. */
  function EntryFor(s: SessionState): (e: EntryView)
    ensures e.sessionId == s.id && e.savedAt == s.savedAt && e.prompt == s.prompt
    ensures e.modelCount == |s.generations|
    ensures e.winner.None? <==> |s.reviews| == 0
    ensures e.winner.Some? ==>
      exists k :: IsFirstMax(s.reviews, k) && e.winner.value == Catalog.Profile(s.reviews[k].targetModelId)
  {
    var winner := match WinnerIndex(s.reviews)
      case None => None
      case Some(k) => Some(Catalog.Profile(s.reviews[k].targetModelId));
    EntryView(s.id, s.savedAt, winner, s.prompt, |s.generations|)
  }

  /** The panel for a given open flag and log. */
  function Render(isOpen: bool, history: seq<SessionState>): (v: SidebarView)
    ensures v.Hidden? <==> !isOpen
    ensures v.NoRecords? <==> isOpen && |history| == 0
    ensures v.Entries? ==> |v.entries| == |history|
    ensures v.Entries? ==> forall i :: 0 <= i < |history| ==> v.entries[i] == EntryFor(history[i])
  {
    if !isOpen then Hidden
    else if |history| == 0 then NoRecords
    else Entries(seq(|history|, i requires 0 <= i < |history| => EntryFor(history[i])))
  }

  /** Computing the badge again on the same reviews picks the same review,
      and it is determined by the scores' order alone. */
  lemma WinnerDeterministic(rs: seq<Review>, k: nat)
    requires IsFirstMax(rs, k)
    ensures WinnerIndex(rs) == Some(k)
  {
    FirstMaxUnique(rs, WinnerIndex(rs).value, k);
  }
}

=== FILE: model_card.dfy ===
/**
 * One persona's card. While identities are hidden the card shows a fixed
 * masked identity and a generic icon; the loading state, the blind-phase
 * overlay and the review footer each appear under one condition on the
 * phase and on what the card has; the grade is coloured in three bands.
 */
module ModelCard {
  import opened Types
  import Catalog

  const MaskedName: string := "Subject ???"
  const MaskedColor: string := "text-gray-500"
  const MaskedProvider: string := "Encrypted"

  const ShufflingCaption: string := "ENCRYPTING IDENTITY..."
  const ReviewingCaption: string := "PEER REVIEW IN PROGRESS..."
  const GradingCaption: string := "CALCULATING GRADES..."
  const WaitingCaption: string := "WAITING"

  datatype Identity = Identity(name: string, color: string, provider: string)

  /** The masked identity, or the catalog's name, colour and provider. */
  function DisplayIdentity(id: ModelId, anonymized: bool): (d: Identity)
    ensures anonymized ==> d == Identity(MaskedName, MaskedColor, MaskedProvider)
    ensures !anonymized ==>
      && d.name == Catalog.Profile(id).name
      && d.color == Catalog.Profile(id).color
      && d.provider == Catalog.Profile(id).provider
  {
    if anonymized then Identity(MaskedName, MaskedColor, MaskedProvider)
    else
      var p := Catalog.Profile(id);
      Identity(p.name, p.color, p.provider)
  }

  /** Masking makes every persona look the same; unmasked, the shown identity
      tells the personas apart. */
  lemma MaskingHidesIdentity(a: ModelId, b: ModelId)
    ensures DisplayIdentity(a, true) == DisplayIdentity(b, true)
    ensures DisplayIdentity(a, false) == DisplayIdentity(b, false) <==> a == b
  {
    Catalog.ProfileNamesDistinct(a, b);
  }

  datatype Icon = GenericIcon | PersonaIcon(id: ModelId)

  /** A masked card shows the generic icon, otherwise the persona's own. */
  function CardIcon(id: ModelId, anonymized: bool): (i: Icon)
    ensures i.GenericIcon? <==> anonymized
    ensures i.PersonaIcon? ==> i.id == id
  {
    if anonymized then GenericIcon else PersonaIcon(id)
  }

  /** The card shows its loading dots only while answers are generated. */
  function IsLoading(status: Status): (b: bool)
    ensures b <==> status == Generating
  {
    status == Generating
  }

  /** The approximate token count is shown only for an unmasked answer. */
  function ShowsTokenCount(generation: Option<GenerationResult>, anonymized: bool): (b: bool)
    ensures b <==> generation.Some? && !anonymized
  {
    generation.Some? && !anonymized
  }

  datatype Body = LoadingDots | Answer(content: string) | AwaitingInput

  /** Loading dots while generating, else the answer if there is one. */
  function CardBody(status: Status, generation: Option<GenerationResult>): (b: Body)
    ensures b.LoadingDots? <==> IsLoading(status)
    ensures b.Answer? <==> !IsLoading(status) && generation.Some?
    ensures b.Answer? ==> b.content == generation.value.content
  {
    if IsLoading(status) then LoadingDots
    else if generation.Some? then Answer(generation.value.content)
    else AwaitingInput
  }

  /** The blind-phase overlay and its caption; shown only over a masked card
      that has an answer, while the session is not complete. */
  function Overlay(anonymized: bool, status: Status, generation: Option<GenerationResult>)
    : (o: Option<string>)
    ensures o.Some? <==> anonymized && status != Complete && generation.Some?
    ensures o.Some? && status == Shuffling ==> o.value == ShufflingCaption
    ensures o.Some? && status == Reviewing ==> o.value == ReviewingCaption
    ensures o.Some? && status == Grading ==> o.value == GradingCaption
    ensures o.Some? && (status == Idle || status == Generating) ==> o.value == WaitingCaption
  {
    if anonymized && status != Complete && generation.Some? then
      Some(match status
        case Shuffling => ShufflingCaption
        case Reviewing => ReviewingCaption
        case Grading => GradingCaption
        case _ => WaitingCaption)
    else None
  }

  datatype Band = Green | Yellow | Red

  /** The grade colour: green from 8, yellow from 5, red below. */
  function GradeBand(score: real): (b: Band)
    ensures b == Green <==> score >= 8.0
    ensures b == Yellow <==> 5.0 <= score < 8.0
    ensures b == Red <==> score < 5.0
  {
    if score >= 8.0 then Green else if score >= 5.0 then Yellow else Red
  }

  /** The text colour class the grade is printed in. */
  function BandColor(b: Band): (c: string)
    ensures c == "text-green-400" <==> b == Green
    ensures c == "text-yellow-400" <==> b == Yellow
    ensures c == "text-red-400" <==> b == Red
  {
    match b
    case Green => "text-green-400"
    case Yellow => "text-yellow-400"
    case Red => "text-red-400"
  }

  function BandRank(b: Band): nat {
    match b
    case Red => 0
    case Yellow => 1
    case Green => 2
  }

  /** A higher score never gets a worse colour. */
  lemma GradeBandMonotone(lo: real, hi: real)
    requires lo <= hi
    ensures BandRank(GradeBand(lo)) <= BandRank(GradeBand(hi))
  {
  }

  datatype Footer = Footer(score: real, band: Band, color: string, reviewerName: string, critique: string)

  /** The review footer: only once the session is complete, and only when
      the card has both a review and a reviewer. */
  function ReviewFooter(review: Option<Review>, reviewerId: Option<ModelId>, status: Status)
    : (f: Option<Footer>)
    ensures f.Some? <==> review.Some? && reviewerId.Some? && status == Complete
    ensures f.Some? ==>
      && f.value.score == review.value.score
      && f.value.band == GradeBand(review.value.score)
      && (f.value.color == "text-green-400" <==> review.value.score >= 8.0)
      && (f.value.color == "text-yellow-400" <==> 5.0 <= review.value.score < 8.0)
      && (f.value.color == "text-red-400" <==> review.value.score < 5.0)
      && f.value.reviewerName == Catalog.Profile(reviewerId.value).name
      && f.value.critique == review.value.critique
  {
    if review.Some? && reviewerId.Some? && status == Complete then
      var r := review.value;
      var band := GradeBand(r.score);
      Some(Footer(r.score, band, BandColor(band), Catalog.Profile(reviewerId.value).name, r.critique))
    else None
  }

  /** What the board hands to a card. */
  datatype CardProps = CardProps(
    modelId: ModelId,
    generation: Option<GenerationResult>,
    review: Option<Review>,
    reviewerId: Option<ModelId>,
    anonymized: bool,
    status: Status)

  datatype CardView = CardView(
    identity: Identity,
    icon: Icon,
    showsTokenCount: bool,
    body: Body,
    overlay: Option<string>,
    footer: Option<Footer>)

  /**
   * One card. A masked card shows neither the persona's identity nor its
   * token count. The blind-phase overlay and the review footer never appear
   * together: the overlay needs an unfinished session, the footer a
   * completed one. A card with a footer is past its loading dots.
   */
  function RenderCard(p: CardProps): (v: CardView)
    ensures p.anonymized ==>
      && v.identity == Identity(MaskedName, MaskedColor, MaskedProvider)
      && v.icon == GenericIcon
      && !v.showsTokenCount
    ensures !p.anonymized ==>
      && v.identity.name == Catalog.Profile(p.modelId).name
      && v.icon == PersonaIcon(p.modelId)
      && (v.showsTokenCount <==> p.generation.Some?)
    ensures v.overlay.Some? ==> v.footer.None? && !v.body.AwaitingInput?
    ensures v.footer.Some? ==> p.status == Complete && v.overlay.None? && !v.body.LoadingDots?
    ensures v.footer.Some? ==>
      && p.review.Some? && p.reviewerId.Some?
      && v.footer.value.critique == p.review.value.critique
      && v.footer.value.reviewerName == Catalog.Profile(p.reviewerId.value).name
    ensures v.body.Answer? ==> p.generation.Some? && v.body.content == p.generation.value.content
  {
    CardView(
      DisplayIdentity(p.modelId, p.anonymized),
      CardIcon(p.modelId, p.anonymized),
      ShowsTokenCount(p.generation, p.anonymized),
      CardBody(p.status, p.generation),
      Overlay(p.anonymized, p.status, p.generation),
      ReviewFooter(p.review, p.reviewerId, p.status))
  }

  /**
   * Blind review: while a masked card's session is not complete, nothing
   * on the card depends on which persona it belongs to, nor on the review
   * it received or who wrote it.
   */
  lemma BlindCardRevealsNothing(p: CardProps, other: ModelId, review: Option<Review>, reviewer: Option<ModelId>)
    requires p.anonymized && p.status != Complete
    ensures RenderCard(p) == RenderCard(p.(modelId := other, review := review, reviewerId := reviewer))
  {
  }
}

=== FILE: orchestrator.dfy ===
/**
 * The session orchestrator: a submission starts a fresh session in
 * `Generating`; the generation batch joins into `Shuffling`; the shuffled
 * order lands in `Reviewing`; the ring-paired review batch joins into
 * `Grading`; a timer completes it. A failed generation batch returns to
 * `Idle` with an error; a failed review batch parks the session with an
 * error. Each step replaces the session snapshot with a new one.
 *
 * Backend replies, clock readings, fresh session ids and the shuffle are
 * inputs: the shuffle is any permutation the caller supplies.
 */
module Orchestrator {
  import opened Types
  import Gemini
  import Storage
  import Submission
  import Announcer

  const CriticalFailureText: string := "Critical System Failure."
  const ReviewCycleFailedText: string := "Review Cycle Failed."

  /** The console: the current session, the text box, the staged upload and
      the persona selection. */
  datatype Console = Console(
    session: SessionState,
    input: string,
    media: Option<Submission.StagedMedia>,
    selection: seq<ModelId>)

  /** A session with nothing in it: `INITIAL_STATE` with the given id. */
  function EmptySession(id: string): (s: SessionState)
    ensures s.id == id && s.status == Idle && s.savedAt.None? && s.error.None?
    ensures s.prompt == [] && s.generations == [] && s.reviews == [] && s.anonymizedOrder == []
    ensures !Storage.ShouldSave(s)
  {
    SessionState(id, None, Idle, [], [], [], None, [])
  }

  /** The console as it starts: an idle empty session, nothing typed or
      staged, every persona selected. */
  function InitialConsole(sessionId: string): (c: Console)
    ensures c.session.status == Idle && c.session.generations == [] && c.session.reviews == []
    ensures Distinct(c.selection) && forall id: ModelId :: id in c.selection
  {
    AllModelIdsComplete();
    Console(EmptySession(sessionId), [], None, AllModelIds)
  }

  /** While a run is in flight the text box, the persona buttons and the
      submit button are disabled. */
  function InputLocked(status: Status): (b: bool)
    ensures b <==> status == Generating || status == Shuffling || status == Reviewing || status == Grading
  {
    status != Idle && status != Complete
  }

  /** The submit button is enabled: no run in flight, and something to send. */
  function SubmitEnabled(c: Console): (b: bool)
    ensures b <==> (c.session.status == Idle || c.session.status == Complete)
                   && (c.media.Some? || exists i :: 0 <= i < |c.input| && !Submission.IsJsWhitespace(c.input[i]))
  {
    !InputLocked(c.session.status) && !Submission.SubmitRejected(c.input, c.media)
  }

  /** A click on a persona button: toggles it, unless the buttons are
      disabled. */
  function ClickPersona(c: Console, id: ModelId): (r: Console)
    ensures InputLocked(c.session.status) ==> r == c
    ensures !InputLocked(c.session.status) ==>
      r == c.(selection := Submission.ToggleModel(c.selection, id))
  {
    if InputLocked(c.session.status) then c
    else c.(selection := Submission.ToggleModel(c.selection, id))
  }

  /** A valid selection (non-empty, duplicate-free) stays valid whatever
      persona button is clicked. */
  lemma ClickKeepsSelectionValid(c: Console, id: ModelId)
    requires Distinct(c.selection) && |c.selection| > 0
    ensures Distinct(ClickPersona(c, id).selection) && |ClickPersona(c, id).selection| > 0
  {
    Submission.ToggleKeepsSelectionValid(c.selection, id);
  }

  /**
   * `handleStart`: a blank submission with nothing staged changes nothing;
   * otherwise a fresh session with the new id starts generating the sent
   * prompt for the current selection, and the staged upload is cleared
   * (the typed text stays).
   */
  function Submit(c: Console, newId: string): (r: Console)
    ensures Submission.SubmitRejected(c.input, c.media) ==> r == c
    ensures !Submission.SubmitRejected(c.input, c.media) ==>
      && r.session.status == Generating
      && r.session.id == newId
      && r.session.prompt == Submission.PromptToSend(c.input, c.media)
      && r.session.anonymizedOrder == c.selection
      && r.session.generations == [] && r.session.reviews == []
      && r.session.error.None? && r.session.savedAt.None?
      && r.media.None? && r.input == c.input && r.selection == c.selection
  {
    if Submission.SubmitRejected(c.input, c.media) then c
    else
      var prompt := Submission.PromptToSend(c.input, c.media);
      Console(EmptySession(newId).(status := Generating, prompt := prompt, anonymizedOrder := c.selection),
              c.input, None, c.selection)
  }

  /** With the submit button enabled, a submission is always accepted. */
  lemma EnabledSubmitIsAccepted(c: Console, newId: string)
    requires SubmitEnabled(c)
    ensures Submit(c, newId).session.status == Generating
  {
  }

  // ---------------------------------------------------------------------
  // Phase transitions
  // ---------------------------------------------------------------------

  /** What can happen to an in-flight session. */
  datatype Event =
    | GenerationJoined(results: seq<GenerationResult>)
    | GenerationFailed
    | ShuffleLanded(order: seq<ModelId>)
    | ReviewsJoined(reviews: seq<Review>)
    | ReviewsFailed
    | GradingElapsed

  /** The snapshot after an event. Every event keeps the session's id,
      prompt and save stamp. */
  function Apply(s: SessionState, e: Event): (r: SessionState)
    ensures r.id == s.id && r.prompt == s.prompt && r.savedAt == s.savedAt
    ensures e.GenerationJoined? ==> r == s.(status := Shuffling, generations := e.results)
    ensures e.GenerationFailed? ==> r == s.(status := Idle, error := Some(CriticalFailureText))
    ensures e.ShuffleLanded? ==> r == s.(status := Reviewing, anonymizedOrder := e.order)
    ensures e.ReviewsJoined? ==> r == s.(status := Grading, reviews := e.reviews)
    ensures e.ReviewsFailed? ==> r == s.(error := Some(ReviewCycleFailedText))
    ensures e.GradingElapsed? ==> r == s.(status := Complete)
  {
    match e
    case GenerationJoined(results) => s.(status := Shuffling, generations := results)
    case GenerationFailed => s.(status := Idle, error := Some(CriticalFailureText))
    case ShuffleLanded(order) => s.(status := Reviewing, anonymizedOrder := order)
    case ReviewsJoined(reviews) => s.(status := Grading, reviews := reviews)
    case ReviewsFailed => s.(error := Some(ReviewCycleFailedText))
    case GradingElapsed => s.(status := Complete)
  }

  // ---------------------------------------------------------------------
  // Generation batch
  // ---------------------------------------------------------------------

  /** One generation call as it settled: the backend's reply and the clock. */
  datatype GenCall = GenCall(reply: Gemini.GenReply, settledAt: int)

  /** The requests of the generation fan-out, one per selected persona, all
      carrying the same prompt. */
  function GenerationRequests(ids: seq<ModelId>, prompt: string): (qs: seq<Gemini.GenerationRequest>)
    ensures |qs| == |ids|
    ensures forall i :: 0 <= i < |ids| ==> qs[i] == Gemini.GenerationRequestFor(ids[i], prompt)
  {
    seq(|ids|, i requires 0 <= i < |ids| => Gemini.GenerationRequestFor(ids[i], prompt))
  }

  /** The joined generation batch: one result per selected persona, in
      selection order, whatever each call did. */
  function GenerateAll(ids: seq<ModelId>, calls: seq<GenCall>): (rs: seq<GenerationResult>)
    requires |calls| == |ids|
    ensures GenerationIds(rs) == ids
    ensures forall i :: 0 <= i < |ids| ==>
      rs[i] == Gemini.GeneratePersonaResponse(ids[i], calls[i].reply, calls[i].settledAt)
  {
    seq(|ids|, i requires 0 <= i < |ids| =>
      Gemini.GeneratePersonaResponse(ids[i], calls[i].reply, calls[i].settledAt))
  }

  // ---------------------------------------------------------------------
  // Review batch: ring pairing
  // ---------------------------------------------------------------------

  /** The persona whose answer the reviewer at position `i` critiques: the
      next one in the order, the last wrapping round to the first. */
  function RingTarget(order: seq<ModelId>, i: nat): (t: ModelId)
    requires i < |order|
    ensures i + 1 < |order| ==> t == order[i + 1]
    ensures i + 1 == |order| ==> t == order[0]
  {
    order[(i + 1) % |order|]
  }

  /** The first answer written by persona `id`, if any. */
  function FindGeneration(gs: seq<GenerationResult>, id: ModelId): (g: Option<GenerationResult>)
    ensures g.None? <==> id !in GenerationIds(gs)
    ensures g.Some? ==> g.value in gs && g.value.modelId == id
  {
    if |gs| == 0 then None
    else if gs[0].modelId == id then Some(gs[0])
    else
      assert GenerationIds(gs) == [gs[0].modelId] + GenerationIds(gs[1..]);
      FindGeneration(gs[1..], id)
  }

  /** The request the reviewer at position `i` issues: about the answer of
      its ring target, or none when that answer is missing. */
  function ReviewRequestAt(gens: seq<GenerationResult>, order: seq<ModelId>, i: nat)
    : (q: Option<Gemini.ReviewRequest>)
    requires i < |order|
    ensures q.None? <==> RingTarget(order, i) !in GenerationIds(gens)
    ensures q.Some? ==> exists g :: g in gens && g.modelId == RingTarget(order, i)
                          && q.value == Gemini.ReviewRequestFor(order[i], g.content)
  {
    match FindGeneration(gens, RingTarget(order, i))
    case None => None
    case Some(g) => Some(Gemini.ReviewRequestFor(order[i], g.content))
  }

  /** A joined batch with its values, or a rejected one. */
  datatype Batch<T> = Joined(values: T) | Rejected

  /** The review written by the reviewer at position `i`: its reply read by
      the review client, with the ring target stamped over the placeholder. */
  function RingReview(order: seq<ModelId>, replies: seq<Gemini.ReviewReply>, i: nat): (r: Review)
    requires i < |order| == |replies|
    ensures r.reviewerId == order[i] && r.targetModelId == RingTarget(order, i)
    ensures r.critique == Gemini.ReviewAndGradeResponse(order[i], replies[i]).critique
    ensures r.score == Gemini.ReviewAndGradeResponse(order[i], replies[i]).score
  {
    Gemini.ReviewAndGradeResponse(order[i], replies[i]).(targetModelId := RingTarget(order, i))
  }

  /**
   * The review batch from position `i` on. Any missing target rejects the
   * whole batch ("Target generation missing"); otherwise position `k`
   * yields the ring review of reviewer `k`.
   */
  function PairReviews(gens: seq<GenerationResult>, order: seq<ModelId>,
                       replies: seq<Gemini.ReviewReply>, i: nat): (b: Batch<seq<Review>>)
    requires |replies| == |order| && i <= |order|
    decreases |order| - i
    ensures b.Joined? ==> |b.values| == |order| - i
    ensures b.Joined? ==> forall k :: 0 <= k < |b.values| ==>
      b.values[k] == RingReview(order, replies, i + k)
  {
    if i == |order| then Joined([])
    else if FindGeneration(gens, RingTarget(order, i)).None? then Rejected
    else match PairReviews(gens, order, replies, i + 1)
      case Rejected => Rejected
      case Joined(rest) => Joined([RingReview(order, replies, i)] + rest)
  }

  /** The batch from position `i` is rejected exactly when some reviewer
      from `i` on has a ring target without an answer. */
  lemma {:induction false} PairReviewsRejectedIff(gens: seq<GenerationResult>, order: seq<ModelId>,
                                                  replies: seq<Gemini.ReviewReply>, i: nat)
    requires |replies| == |order| && i <= |order|
    decreases |order| - i
    ensures PairReviews(gens, order, replies, i).Rejected? <==>
      exists j :: i <= j < |order| && RingTarget(order, j) !in GenerationIds(gens)
  {
    if i < |order| {
      PairReviewsRejectedIff(gens, order, replies, i + 1);
      if FindGeneration(gens, RingTarget(order, i)).Some? {
        assert RingTarget(order, i) in GenerationIds(gens);
      }
    }
  }

  /** `startReviewProcess`'s batch: one review per position of the order. */
  function ReviewCycle(gens: seq<GenerationResult>, order: seq<ModelId>,
                       replies: seq<Gemini.ReviewReply>): (b: Batch<seq<Review>>)
    requires |replies| == |order|
    ensures b.Rejected? <==> exists j :: 0 <= j < |order| && RingTarget(order, j) !in GenerationIds(gens)
    ensures b.Joined? ==> |b.values| == |order|
    ensures b.Joined? ==> forall k :: 0 <= k < |order| ==> b.values[k] == RingReview(order, replies, k)
  {
    PairReviewsRejectedIff(gens, order, replies, 0);
    PairReviews(gens, order, replies, 0)
  }

  /** When every persona of the order has an answer, no target is missing:
      the "Target generation missing" failure cannot happen. */
  lemma PermutationFindsEveryTarget(gens: seq<GenerationResult>, order: seq<ModelId>,
                                    replies: seq<Gemini.ReviewReply>)
    requires |replies| == |order|
    requires multiset(order) == multiset(GenerationIds(gens))
    ensures ReviewCycle(gens, order, replies).Joined?
  {
    forall j | 0 <= j < |order| ensures RingTarget(order, j) in GenerationIds(gens) {
      var t := RingTarget(order, j);
      assert t in multiset(order);
    }
    PairReviewsRejectedIff(gens, order, replies, 0);
  }

  /** The reviewers are the order itself and the targets are the order
      rotated by one, so every persona is reviewed exactly as often as it
      reviews. */
  lemma RingTargetsRotate(gens: seq<GenerationResult>, order: seq<ModelId>,
                          replies: seq<Gemini.ReviewReply>)
    requires |replies| == |order| && |order| > 0
    requires ReviewCycle(gens, order, replies).Joined?
    ensures var reviews := ReviewCycle(gens, order, replies).values;
      && ReviewerIds(reviews) == order
      && TargetIds(reviews) == order[1..] + order[..1]
      && multiset(TargetIds(reviews)) == multiset(order)
  {
    var reviews := ReviewCycle(gens, order, replies).values;
    assert TargetIds(reviews) == order[1..] + order[..1];
    assert order == order[..1] + order[1..];
  }

  /** With a single persona, it reviews its own answer. */
  lemma SinglePersonaReviewsItself(gens: seq<GenerationResult>, order: seq<ModelId>,
                                   replies: seq<Gemini.ReviewReply>)
    requires |replies| == |order| == 1
    requires ReviewCycle(gens, order, replies).Joined?
    ensures var reviews := ReviewCycle(gens, order, replies).values;
      reviews[0].reviewerId == reviews[0].targetModelId == order[0]
  {
  }

  // ---------------------------------------------------------------------
  // A whole run
  // ---------------------------------------------------------------------

  /** How the generation batch settled as a whole. */
  datatype GenBatch = GenSettled(calls: seq<GenCall>) | GenRejected

  /**
   * The successive session snapshots of one run started from console `c`:
   * empty for a rejected submission; otherwise the generating snapshot,
   * then the failure snapshot, or the shuffling, reviewing and (after the
   * review batch) grading and complete snapshots, or the review-failure one.
   */
  function RunSession(c: Console, newId: string, gen: GenBatch, shuffled: seq<ModelId>,
                      replies: seq<Gemini.ReviewReply>): (trace: seq<SessionState>)
    requires gen.GenSettled? ==> |gen.calls| == |c.selection|
    requires |replies| == |shuffled|
    ensures trace == [] <==> Submission.SubmitRejected(c.input, c.media)
    ensures trace != [] ==> trace[0] == Submit(c, newId).session
    ensures gen.GenRejected? && trace != [] ==>
      |trace| == 2 && trace[1] == trace[0].(status := Idle, error := Some(CriticalFailureText))
  {
    if Submission.SubmitRejected(c.input, c.media) then []
    else
      var s1 := Submit(c, newId).session;
      match gen
      case GenRejected => [s1, Apply(s1, GenerationFailed)]
      case GenSettled(calls) =>
        var results := GenerateAll(c.selection, calls);
        var s2 := Apply(s1, GenerationJoined(results));
        var s3 := Apply(s2, ShuffleLanded(shuffled));
        match ReviewCycle(results, shuffled, replies)
        case Rejected => [s1, s2, s3, Apply(s3, ReviewsFailed)]
        case Joined(reviews) =>
          var s4 := Apply(s3, ReviewsJoined(reviews));
          [s1, s2, s3, s4, Apply(s4, GradingElapsed)]
  }

  function Statuses(trace: seq<SessionState>): (r: seq<Status>)
    ensures |r| == |trace|
    ensures forall i :: 0 <= i < |trace| ==> r[i] == trace[i].status
  {
    seq(|trace|, i requires 0 <= i < |trace| => trace[i].status)
  }

  /** The happy path's trace: five snapshots, one per phase, the last
      holding the answers, the shuffled order and the reviews. */
  lemma JoinedTrace(c: Console, newId: string, calls: seq<GenCall>,
                    shuffled: seq<ModelId>, replies: seq<Gemini.ReviewReply>)
    requires !Submission.SubmitRejected(c.input, c.media)
    requires |calls| == |c.selection| && |replies| == |shuffled|
    requires ReviewCycle(GenerateAll(c.selection, calls), shuffled, replies).Joined?
    ensures var trace := RunSession(c, newId, GenSettled(calls), shuffled, replies);
      && |trace| == 5
      && trace[0].status == Generating && trace[1].status == Shuffling
      && trace[2].status == Reviewing && trace[3].status == Grading
      && trace[4] == Submit(c, newId).session.(status := Complete,
           generations := GenerateAll(c.selection, calls), anonymizedOrder := shuffled,
           reviews := ReviewCycle(GenerateAll(c.selection, calls), shuffled, replies).values)
  {
  }

  /** Five snapshots in the phases of a completed run, in order. */
  lemma CompleteStatuses(trace: seq<SessionState>)
    requires |trace| == 5
    requires trace[0].status == Generating && trace[1].status == Shuffling
    requires trace[2].status == Reviewing && trace[3].status == Grading
    requires trace[4].status == Complete
    ensures Statuses(trace) == [Generating, Shuffling, Reviewing, Grading, Complete]
  {
    var st := Statuses(trace);
    assert st[0] == Generating && st[1] == Shuffling && st[2] == Reviewing;
    assert st[3] == Grading && st[4] == Complete;
  }

  /**
   * A run over a duplicate-free selection whose shuffle is a permutation of
   * it goes through every phase in order and completes: one answer per
   * selected persona in selection order, one review per position of the
   * shuffled order, reviewer `i` critiquing persona `i + 1` (wrapping), and
   * every persona reviewed exactly once.
   */
  lemma RunCompletes(c: Console, newId: string, calls: seq<GenCall>,
                     shuffled: seq<ModelId>, replies: seq<Gemini.ReviewReply>)
    requires !Submission.SubmitRejected(c.input, c.media)
    requires |calls| == |c.selection| && |replies| == |shuffled|
    requires |c.selection| > 0
    requires multiset(shuffled) == multiset(c.selection)
    ensures var trace := RunSession(c, newId, GenSettled(calls), shuffled, replies);
      && |trace| == 5
      && Statuses(trace) == [Generating, Shuffling, Reviewing, Grading, Complete]
      && trace[4].id == newId
      && trace[4].prompt == Submission.PromptToSend(c.input, c.media)
      && trace[4].error.None?
      && GenerationIds(trace[4].generations) == c.selection
      && trace[4].anonymizedOrder == shuffled
      && ReviewerIds(trace[4].reviews) == shuffled
      && TargetIds(trace[4].reviews) == shuffled[1..] + shuffled[..1]
      && multiset(TargetIds(trace[4].reviews)) == multiset(c.selection)
  {
    var results := GenerateAll(c.selection, calls);
    PermutationFindsEveryTarget(results, shuffled, replies);
    RingTargetsRotate(results, shuffled, replies);
    JoinedTrace(c, newId, calls, shuffled, replies);
    var trace := RunSession(c, newId, GenSettled(calls), shuffled, replies);
    CompleteStatuses(trace);
  }

  /** A failed generation batch returns the session to `Idle` with the
      critical-failure message and no answers, so a new submission is
      possible. */
  lemma GenerationFailureReturnsToIdle(c: Console, newId: string, shuffled: seq<ModelId>,
                                       replies: seq<Gemini.ReviewReply>)
    requires !Submission.SubmitRejected(c.input, c.media)
    requires |replies| == |shuffled|
    ensures var trace := RunSession(c, newId, GenRejected, shuffled, replies);
      && Statuses(trace) == [Generating, Idle]
      && trace[1].error == Some(CriticalFailureText)
      && trace[1].generations == []
      && !InputLocked(trace[1].status)
  {
  }

  /** A failed review batch records the review-cycle message, stores no
      reviews and leaves the session in `Reviewing`. */
  lemma ReviewFailureParksSession(c: Console, newId: string, calls: seq<GenCall>,
                                  shuffled: seq<ModelId>, replies: seq<Gemini.ReviewReply>)
    requires !Submission.SubmitRejected(c.input, c.media)
    requires |calls| == |c.selection| && |replies| == |shuffled|
    requires ReviewCycle(GenerateAll(c.selection, calls), shuffled, replies).Rejected?
    ensures var trace := RunSession(c, newId, GenSettled(calls), shuffled, replies);
      && Statuses(trace) == [Generating, Shuffling, Reviewing, Reviewing]
      && trace[3].error == Some(ReviewCycleFailedText)
      && trace[3].reviews == []
  {
    var trace := RunSession(c, newId, GenSettled(calls), shuffled, replies);
    assert Statuses(trace) == [Generating, Shuffling, Reviewing, Reviewing];
  }

  // ---------------------------------------------------------------------
  // Completion: save and announce
  // ---------------------------------------------------------------------

  /** What reaching `Complete` triggers: the store after saving, the history
      list read back, and the announcement. */
  datatype CompletionEffects = CompletionEffects(
    store: Storage.Blob,
    history: seq<SessionState>,
    announcement: Option<Announcer.Announcement>)

  /**
   * The effect keyed on the session status: it runs when the status changes
   * and the new status is `Complete`. It saves the session (at `now`, the
   * write succeeding or not), re-reads the history and announces the winner.
   */
  function OnStatusChange(prev: Status, s: SessionState, store: Storage.Blob, now: int,
                          writeSucceeds: bool): (fx: Option<CompletionEffects>)
    ensures fx.Some? <==> prev != Complete && s.status == Complete
    ensures fx.Some? ==>
      && fx.value.store == Storage.SaveToStore(store, s, now, writeSucceeds)
      && fx.value.history == Storage.GetHistory(fx.value.store)
      && fx.value.announcement == Announcer.AnnounceWinner(s)
  {
    if prev != Complete && s.status == Complete then
      var store' := Storage.SaveToStore(store, s, now, writeSucceeds);
      Some(CompletionEffects(store', Storage.GetHistory(store'), Announcer.AnnounceWinner(s)))
    else None
  }

  /** `onSelectSession` as written: the history panel stays usable during a
      run, and choosing a logged session replaces the shown session outright
      and puts its prompt back in the text box. */
  function SelectFromHistoryAsWritten(c: Console, s: SessionState): (r: Console)
    ensures r.session == s && r.input == s.prompt
    ensures r.media == c.media && r.selection == c.selection
  {
    c.(session := s, input := s.prompt)
  }

  /** Whether a run is still in flight: an in-flight phase with no error.
      A failed review batch leaves the status in `Reviewing` with an error,
      and no step of the run follows it. */
  function RunInFlight(s: SessionState): (b: bool)
    ensures b <==> InputLocked(s.status) && s.error.None?
  {
    InputLocked(s.status) && s.error.None?
  }

  /** Choosing a logged session, with the panel locked like the other
      controls while a run is in flight: then nothing changes; otherwise,
      a parked session included, the logged session is shown and its prompt
      is put back in the text box. */
  function SelectFromHistory(c: Console, s: SessionState): (r: Console)
    ensures RunInFlight(c.session) ==> r == c
    ensures !RunInFlight(c.session) ==> r.session == s && r.input == s.prompt
    ensures r.media == c.media && r.selection == c.selection
  {
    if RunInFlight(c.session) then c else SelectFromHistoryAsWritten(c, s)
  }

  /**
   * The code as written: choosing a logged session while a run is in flight
   * hands the rest of the run to that session. Every later step of the run
   * updates whatever session is shown, so the run's answers and reviews are
   * saved under the logged session's id and next to its prompt.
   */
  lemma MidRunPickMergesRunIntoLog(c: Console, s: SessionState, store: Storage.Blob, t1: int, t2: int,
                                   results: seq<GenerationResult>, shuffled: seq<ModelId>,
                                   reviews: seq<Review>)
    requires c.session.status == Generating
    requires Storage.ShouldSave(s) && Storage.WellFormedStore(store)
    ensures var picked := SelectFromHistoryAsWritten(c, s).session;
      var done := Apply(Apply(Apply(Apply(picked, GenerationJoined(results)), ShuffleLanded(shuffled)),
                              ReviewsJoined(reviews)), GradingElapsed);
      var fx1 := OnStatusChange(c.session.status, picked, store, t1, true);
      && fx1.Some?
      && var fx2 := OnStatusChange(Grading, done, fx1.value.store, t2, true);
      && fx2.Some?
      && Storage.Stamp(done, t2) in fx2.value.history
      && done.id == s.id && done.prompt == s.prompt
      && done.generations == results && done.reviews == reviews
  {
    var picked := SelectFromHistoryAsWritten(c, s).session;
    var fx1 := OnStatusChange(c.session.status, picked, store, t1, true);
    Storage.SavedStoreHoldsSession(store, picked, t1, true);
    var done := Apply(Apply(Apply(Apply(picked, GenerationJoined(results)), ShuffleLanded(shuffled)),
                            ReviewsJoined(reviews)), GradingElapsed);
    Storage.SavedStoreHoldsSession(fx1.value.store, done, t2, true);
  }

  /**
   * With the panel locked, a completed run cannot be diverted: at every
   * in-flight snapshot, choosing any logged session changes nothing, and
   * the run completes under its own id with its own prompt.
   */
  lemma LockedPanelKeepsRun(c: Console, newId: string, calls: seq<GenCall>,
                            shuffled: seq<ModelId>, replies: seq<Gemini.ReviewReply>, s: SessionState)
    requires !Submission.SubmitRejected(c.input, c.media)
    requires |calls| == |c.selection| && |replies| == |shuffled|
    requires multiset(shuffled) == multiset(c.selection)
    ensures var trace := RunSession(c, newId, GenSettled(calls), shuffled, replies);
      && |trace| == 5
      && (forall i :: 0 <= i < 4 ==> SelectFromHistory(c.(session := trace[i]), s) == c.(session := trace[i]))
      && trace[4].status == Complete
      && trace[4].id == newId && trace[4].prompt == Submission.PromptToSend(c.input, c.media)
  {
    var results := GenerateAll(c.selection, calls);
    PermutationFindsEveryTarget(results, shuffled, replies);
    JoinedTrace(c, newId, calls, shuffled, replies);
  }

  /**
   * The locked panel still frees a session parked by a failed review
   * batch: choosing a logged session there shows it, and the completion
   * effect re-saves it.
   */
  lemma PanelFreesParkedSession(c: Console, newId: string, calls: seq<GenCall>,
                                shuffled: seq<ModelId>, replies: seq<Gemini.ReviewReply>,
                                s: SessionState)
    requires !Submission.SubmitRejected(c.input, c.media)
    requires |calls| == |c.selection| && |replies| == |shuffled|
    requires ReviewCycle(GenerateAll(c.selection, calls), shuffled, replies).Rejected?
    ensures var trace := RunSession(c, newId, GenSettled(calls), shuffled, replies);
      && |trace| == 4
      && InputLocked(trace[3].status)
      && SelectFromHistory(c.(session := trace[3]), s).session == s
  {
    ReviewFailureParksSession(c, newId, calls, shuffled, replies);
  }

  /**
   * A completed run is logged and announced: the completion effect fires on
   * the step from `Grading`, the stamped session is in the history read
   * back (the write succeeding), and the winner is announced.
   */
  lemma CompletedRunIsLogged(c: Console, newId: string, calls: seq<GenCall>,
                             shuffled: seq<ModelId>, replies: seq<Gemini.ReviewReply>,
                             store: Storage.Blob, now: int)
    requires !Submission.SubmitRejected(c.input, c.media)
    requires |calls| == |c.selection| && |replies| == |shuffled|
    requires |c.selection| > 0
    requires multiset(shuffled) == multiset(c.selection)
    requires Storage.WellFormedStore(store)
    ensures var trace := RunSession(c, newId, GenSettled(calls), shuffled, replies);
      && |trace| == 5
      && var fx := OnStatusChange(trace[3].status, trace[4], store, now, true);
      && fx.Some?
      && Storage.Stamp(trace[4], now) in fx.value.history
      && |fx.value.history| <= Storage.HistoryCap
      && fx.value.announcement.Some?
  {
    RunCompletes(c, newId, calls, shuffled, replies);
    var trace := RunSession(c, newId, GenSettled(calls), shuffled, replies);
    Submission.AcceptedPromptNonEmpty(c.input, c.media);
    assert Storage.ShouldSave(trace[4]);
    Storage.SavedStoreHoldsSession(store, trace[4], now, true);
    assert |trace[4].reviews| == |shuffled|;
  }

  /**
   * Re-opening a logged session from the history panel re-saves it when
   * the console was idle or parked by a failed review batch (from a
   * completed session the status does not change, and during a run the
   * panel is locked); either way the log does not grow.
   */
  lemma ReopeningDoesNotGrowLog(c: Console, s: SessionState, store: Storage.Blob, now: int)
    requires Storage.WellFormedStore(store)
    requires s in Storage.GetHistory(store) && s.status == Complete
    ensures var fx := OnStatusChange(c.session.status, SelectFromHistory(c, s).session, store, now, true);
      fx.Some? <==> c.session.status == Idle || (InputLocked(c.session.status) && c.session.error.Some?)
    ensures var fx := OnStatusChange(c.session.status, SelectFromHistory(c, s).session, store, now, true);
      fx.Some? ==> |fx.value.history| == |Storage.GetHistory(store)|
  {
    var h := Storage.GetHistory(store);
    if s.prompt != [] {
      var k := Storage.FindIndex(h, s.id);
      assert k.Some? by {
        var j :| 0 <= j < |h| && h[j] == s;
      }
      Storage.SaveReplacesInPlace(h, s, now, k.value);
    }
  }
}

=== FILE: storage.dfy ===
/**
 * The history log: completed sessions, most recent first, capped at twenty
 * entries. Saving is an upsert by session id (replace in place, or prepend)
 * followed by truncation. The browser's key-value store is modelled as a
 * value (`Blob`) that the read, save and clear operations take and return.
 */
module Storage {
  import opened Types

  const HistoryCap: nat := 20

  /** Only a completed session with a non-empty prompt is ever saved. */
  function ShouldSave(session: SessionState): (b: bool)
    ensures b ==> session.status == Complete && |session.prompt| > 0
    ensures !b ==> session.status != Complete || |session.prompt| == 0
  {
    session.prompt != [] && session.status == Complete
  }

  /** No two entries of a history share a session id. */
  predicate DistinctIds(history: seq<SessionState>) {
    forall i, j :: 0 <= i < j < |history| ==> history[i].id != history[j].id
  }

  function Min(a: int, b: int): int {
    if a <= b then a else b
  }

  /** The first position of the log holding a session with this id, if
      any. */
  function FindIndex(history: seq<SessionState>, id: string): (r: Option<nat>)
    ensures r.None? <==> forall k :: 0 <= k < |history| ==> history[k].id != id
    ensures r.Some? ==> r.value < |history| && history[r.value].id == id
    ensures r.Some? ==> forall k :: 0 <= k < r.value ==> history[k].id != id
  {
    if |history| == 0 then None
    else if history[0].id == id then Some(0)
    else match FindIndex(history[1..], id)
      case None => None
      case Some(k) => Some(k + 1)
  }

  /** The entry written for a session: the session stamped with `now`. */
  function Stamp(session: SessionState, now: int): (r: SessionState)
    ensures r.savedAt == Some(now)
    ensures r.id == session.id && r.status == session.status && r.prompt == session.prompt
    ensures r.generations == session.generations && r.reviews == session.reviews
    ensures r.error == session.error && r.anonymizedOrder == session.anonymizedOrder
  {
    session.(savedAt := Some(now))
  }

  /** The history after writing `entry`, before trimming: the entry is in
      it, every other element was there before, and it grows by one exactly
      when the id was new. */
  function Upsert(history: seq<SessionState>, entry: SessionState): (r: seq<SessionState>)
    ensures entry in r
    ensures forall x :: x in r ==> x == entry || x in history
    ensures |r| == if FindIndex(history, entry.id).None? then |history| + 1 else |history|
  {
    match FindIndex(history, entry.id)
    case Some(k) =>
      var r := history[k := entry];
      assert r[k] == entry;
      r
    case None => [entry] + history
  }

  /**
   * `saveSessionToHistory` as a transform of the stored list: nothing changes
   * unless the session is saveable; otherwise upsert the stamped session by
   * id and keep the first twenty entries.
   */
  function SaveSessionToHistory(history: seq<SessionState>, session: SessionState, now: int)
    : (r: seq<SessionState>)
    ensures !ShouldSave(session) ==> r == history
    ensures ShouldSave(session) ==> |r| <= HistoryCap
  {
    if !ShouldSave(session) then history
    else
      var updated := Upsert(history, Stamp(session, now));
      updated[..Min(|updated|, HistoryCap)]
  }

  /** A known id is overwritten at its own position; nothing else moves, and
      the length is that of the input (up to the cap). */
  lemma SaveReplacesInPlace(history: seq<SessionState>, session: SessionState, now: int, k: nat)
    requires ShouldSave(session)
    requires k < |history| && history[k].id == session.id
    requires forall j :: 0 <= j < k ==> history[j].id != session.id
    ensures var r := SaveSessionToHistory(history, session, now);
      && |r| == Min(|history|, HistoryCap)
      && (k < HistoryCap ==> r[k] == Stamp(session, now))
      && forall j :: 0 <= j < |r| && j != k ==> r[j] == history[j]
  {
    assert FindIndex(history, session.id) == Some(k);
  }

  /** A new id goes to the front, followed by the old entries in their old
      order, and the result has one more entry (up to the cap). */
  lemma SavePrepends(history: seq<SessionState>, session: SessionState, now: int)
    requires ShouldSave(session)
    requires forall j :: 0 <= j < |history| ==> history[j].id != session.id
    ensures var r := SaveSessionToHistory(history, session, now);
      && |r| == Min(|history| + 1, HistoryCap)
      && r[0] == Stamp(session, now)
      && forall j :: 1 <= j < |r| ==> r[j] == history[j - 1]
  {
  }

  /** A twenty-first distinct session evicts exactly the oldest entry. */
  lemma SaveEvictsOldest(history: seq<SessionState>, session: SessionState, now: int)
    requires ShouldSave(session)
    requires |history| == HistoryCap
    requires forall j :: 0 <= j < |history| ==> history[j].id != session.id
    ensures SaveSessionToHistory(history, session, now)
         == [Stamp(session, now)] + history[..HistoryCap - 1]
  {
    SavePrepends(history, session, now);
  }

  /** Saving never introduces a second entry with the same id. */
  lemma SavePreservesDistinctIds(history: seq<SessionState>, session: SessionState, now: int)
    requires DistinctIds(history)
    ensures DistinctIds(SaveSessionToHistory(history, session, now))
  {
    if ShouldSave(session) {
      var entry := Stamp(session, now);
      var updated := Upsert(history, entry);
      assert DistinctIds(updated) by {
        match FindIndex(history, entry.id)
        case Some(k) =>
        case None =>
          forall i, j | 0 <= i < j < |updated| ensures updated[i].id != updated[j].id {
            if i == 0 {
              assert updated[j] == history[j - 1];
            } else {
              assert updated[i] == history[i - 1] && updated[j] == history[j - 1];
            }
          }
      }
    }
  }

  /** Re-saving a session that is already logged does not grow the log. */
  lemma ResaveDoesNotGrow(history: seq<SessionState>, session: SessionState, now: int, later: int)
    requires ShouldSave(session)
    ensures var once := SaveSessionToHistory(history, session, now);
      |SaveSessionToHistory(once, session, later)| == |once|
  {
    var once := SaveSessionToHistory(history, session, now);
    var i := FindIndex(history, session.id);
    if i.Some? {
      SaveReplacesInPlace(history, session, now, i.value);
    } else {
      SavePrepends(history, session, now);
    }
    match FindIndex(once, session.id)
    case Some(k) =>
      SaveReplacesInPlace(once, session, later, k);
    case None =>
      // The first save's entry was trimmed away, so the log was full.
      assert i.Some? && i.value >= HistoryCap;
      SavePrepends(once, session, later);
  }

  // ---------------------------------------------------------------------
  // The persistent store
  // ---------------------------------------------------------------------

  /**
   * What the store holds under its one key (`arcovel_sessions_v1`):
   * nothing, a text that parses as a list of sessions, or a text that is
   * not JSON at all (`Unreadable`, which also covers the empty text). Text
   * that parses to JSON other than a list is not modelled.
   */
  datatype Blob = Absent | Unreadable | Stored(sessions: seq<SessionState>)

  /** `getHistory`: the stored list, or the empty list when there is none
      or it is not JSON. */
  function GetHistory(b: Blob): (h: seq<SessionState>)
    ensures b.Stored? ==> h == b.sessions
    ensures !b.Stored? ==> h == []
  {
    if b.Stored? then b.sessions else []
  }

  /** `clearHistory`: the key is removed. */
  function ClearHistory(): (r: Blob)
    ensures GetHistory(r) == []
  {
    Absent
  }

  /**
   * `saveSessionToHistory` against the store. `writeSucceeds` is whether the
   * browser accepted the write; a refused write (quota, disabled storage) is
   * swallowed and leaves the store as it was.
   */
  function SaveToStore(b: Blob, session: SessionState, now: int, writeSucceeds: bool): (r: Blob)
    ensures !ShouldSave(session) || !writeSucceeds ==> r == b
    ensures ShouldSave(session) && writeSucceeds ==>
      GetHistory(r) == SaveSessionToHistory(GetHistory(b), session, now)
  {
    if !ShouldSave(session) then b
    else if !writeSucceeds then b
    else Stored(SaveSessionToHistory(GetHistory(b), session, now))
  }

  /** The store only ever holds lists this code wrote, so it never holds
      more than twenty entries; saving keeps it that way. */
  predicate WellFormedStore(b: Blob) {
    |GetHistory(b)| <= HistoryCap
  }

  /** Starting from a well-formed store, a successful save leaves a
      well-formed store whose entries include the stamped session. */
  lemma SavedStoreHoldsSession(b: Blob, session: SessionState, now: int, writeSucceeds: bool)
    requires WellFormedStore(b)
    ensures WellFormedStore(SaveToStore(b, session, now, writeSucceeds))
    ensures ShouldSave(session) && writeSucceeds ==>
      Stamp(session, now) in GetHistory(SaveToStore(b, session, now, writeSucceeds))
  {
    if ShouldSave(session) && writeSucceeds {
      var h := GetHistory(b);
      match FindIndex(h, session.id)
      case Some(k) => SaveReplacesInPlace(h, session, now, k);
      case None => SavePrepends(h, session, now);
    }
  }
}

=== FILE: submission.dfy ===
/**
 * The console's input side: which personas are selected (never none),
 * when a submission is accepted (some non-blank text or a staged
 * attachment), and the prompt that is sent (the raw input, followed by an
 * attachment note exactly when something is staged).
 */
module Submission {
  import opened Types

  // ---------------------------------------------------------------------
  // Persona selection
  // ---------------------------------------------------------------------

  /** The selection with every occurrence of `id` removed, the rest kept in
      order. */
  function Without(s: seq<ModelId>, id: ModelId): (r: seq<ModelId>)
    ensures id !in r
    ensures forall m :: m != id ==> (m in r <==> m in s)
    ensures |r| <= |s|
    ensures id in s ==> |r| < |s|
  {
    if |s| == 0 then []
    else if s[0] == id then Without(s[1..], id)
    else [s[0]] + Without(s[1..], id)
  }

  /** Filtering out an element of a duplicate-free list cuts out exactly its
      one position and keeps the others in order. */
  lemma {:induction false} WithoutCutsOnePosition(s: seq<ModelId>, k: nat)
    requires Distinct(s) && k < |s|
    ensures Without(s, s[k]) == s[..k] + s[k + 1..]
  {
    if k == 0 {
      assert s[0] !in s[1..];
      WithoutAbsent(s[1..], s[0]);
    } else {
      assert Distinct(s[1..]);
      assert s[1..][k - 1] == s[k];
      WithoutCutsOnePosition(s[1..], k - 1);
      assert s[1..][..k - 1] + s[1..][k..] == s[1..k] + s[k + 1..];
      assert [s[0]] + (s[1..k] + s[k + 1..]) == s[..k] + s[k + 1..];
    }
  }

  /** Filtering out an absent element changes nothing. */
  lemma {:induction false} WithoutAbsent(s: seq<ModelId>, id: ModelId)
    requires id !in s
    ensures Without(s, id) == s
  {
    if |s| > 0 {
      assert s[1..] + [] == s[1..];
      assert id !in s[1..];
      WithoutAbsent(s[1..], id);
      assert [s[0]] + s[1..] == s;
    }
  }

  /** Filtering keeps a duplicate-free list duplicate-free. */
  lemma {:induction false} WithoutDistinct(s: seq<ModelId>, id: ModelId)
    requires Distinct(s)
    ensures Distinct(Without(s, id))
  {
    if |s| > 0 {
      assert Distinct(s[1..]);
      WithoutDistinct(s[1..], id);
      assert s[0] !in s[1..];
    }
  }

  /**
   * `toggleModel`: a selected persona is removed unless it is the only one
   * left; an unselected persona is appended at the end. Every other
   * persona's membership is untouched.
   */
  function ToggleModel(prev: seq<ModelId>, id: ModelId): (r: seq<ModelId>)
    ensures forall m :: m != id ==> (m in r <==> m in prev)
    ensures id in r <==> id !in prev || |prev| == 1
    ensures id !in prev ==> r == prev + [id]
    ensures id in prev && |prev| == 1 ==> r == prev
  {
    if id in prev then
      if |prev| == 1 then prev else Without(prev, id)
    else prev + [id]
  }

  /** The selection never becomes empty and never holds a persona twice. */
  lemma ToggleKeepsSelectionValid(prev: seq<ModelId>, id: ModelId)
    requires Distinct(prev)
    ensures |ToggleModel(prev, id)| > 0
    ensures Distinct(ToggleModel(prev, id))
  {
    if id in prev && |prev| != 1 {
      WithoutDistinct(prev, id);
      var k :| 0 <= k < |prev| && prev[k] == id;
      var other := if k == 0 then prev[1] else prev[0];
      assert other != id && other in prev;
      assert other in ToggleModel(prev, id);
    }
  }

  /** Deselecting one of several selected personas removes exactly its
      position; the rest stay in their order. */
  lemma ToggleRemovesInPlace(prev: seq<ModelId>, k: nat)
    requires Distinct(prev) && k < |prev| && |prev| > 1
    ensures ToggleModel(prev, prev[k]) == prev[..k] + prev[k + 1..]
  {
    WithoutCutsOnePosition(prev, k);
  }

  // ---------------------------------------------------------------------
  // Submission guard and prompt
  // ---------------------------------------------------------------------

  /** The characters `String.prototype.trim` removes: ECMAScript white space
      and line terminators. */
  predicate IsJsWhitespace(c: char) {
    || c == '\t' || c == '\n' || c == '\U{000B}' || c == '\U{000C}' || c == '\r'
    || c == ' ' || c == '\U{00A0}' || c == '\U{1680}'
    || ('\U{2000}' <= c <= '\U{200A}')
    || c == '\U{2028}' || c == '\U{2029}' || c == '\U{202F}' || c == '\U{205F}'
    || c == '\U{3000}' || c == '\U{FEFF}'
  }

  /** Drop leading white space. */
  function TrimStart(s: string): (r: string)
    ensures |r| <= |s| && r == s[|s| - |r|..]
    ensures r == [] || !IsJsWhitespace(r[0])
    ensures forall i :: 0 <= i < |s| - |r| ==> IsJsWhitespace(s[i])
  {
    if |s| > 0 && IsJsWhitespace(s[0]) then TrimStart(s[1..]) else s
  }

  /** Drop trailing white space. */
  function TrimEnd(s: string): (r: string)
    ensures |r| <= |s| && r == s[..|r|]
    ensures r == [] || !IsJsWhitespace(r[|r| - 1])
    ensures forall i :: |r| <= i < |s| ==> IsJsWhitespace(s[i])
  {
    if |s| > 0 && IsJsWhitespace(s[|s| - 1]) then TrimEnd(s[..|s| - 1]) else s
  }

  /** How many white-space characters the text starts with. */
  function LeadingSpace(s: string): (n: nat)
    ensures n <= |s|
    ensures forall i :: 0 <= i < n ==> IsJsWhitespace(s[i])
    ensures n == |s| || !IsJsWhitespace(s[n])
  {
    var t := TrimStart(s);
    assert t != [] ==> t[0] == s[|s| - |t|];
    |s| - |t|
  }

  /** `String.prototype.trim`: the text after its leading white space, up to
      its trailing white space; it starts and ends with a non-space. */
  function Trim(s: string): (r: string)
    ensures LeadingSpace(s) + |r| <= |s|
    ensures r == s[LeadingSpace(s)..LeadingSpace(s) + |r|]
    ensures r == [] || (!IsJsWhitespace(r[0]) && !IsJsWhitespace(r[|r| - 1]))
    ensures forall i :: LeadingSpace(s) + |r| <= i < |s| ==> IsJsWhitespace(s[i])
  {
    var t := TrimStart(s);
    var n := LeadingSpace(s);
    assert t == s[n..];
    var r := TrimEnd(t);
    assert r != [] ==> r[0] == t[0];
    forall i | n + |r| <= i < |s| ensures IsJsWhitespace(s[i]) {
      assert s[i] == t[i - n];
    }
    r
  }

  /** Trimming leaves nothing exactly when the text is all white space. */
  lemma TrimEmptyIffBlank(s: string)
    ensures Trim(s) == [] <==> forall i :: 0 <= i < |s| ==> IsJsWhitespace(s[i])
  {
    var t := TrimStart(s);
    if |t| > 0 {
      assert t[0] == TrimEnd(t)[0];
    }
  }

  datatype MediaKind = ImageMedia | FileMedia

  /** A staged upload: its kind and its file name. */
  datatype StagedMedia = StagedMedia(kind: MediaKind, name: string)

  function KindLabel(k: MediaKind): string {
    match k
    case ImageMedia => "image"
    case FileMedia => "file"
  }

  /** Whether submit refuses: the text is blank and nothing is staged. */
  function SubmitRejected(input: string, media: Option<StagedMedia>): (b: bool)
    ensures b <==> media.None? && forall i :: 0 <= i < |input| ==> IsJsWhitespace(input[i])
  {
    TrimEmptyIffBlank(input);
    Trim(input) == [] && media.None?
  }

  /** The note ` [Attached {kind}: {name}]` describing a staged upload. */
  function AttachmentNote(m: StagedMedia): (note: string)
    ensures |note| > 0
  {
    " [Attached " + KindLabel(m.kind) + ": " + m.name + "]"
  }

  /** The prompt sent: the raw (untrimmed) input, then the attachment note
      exactly when something is staged. */
  function PromptToSend(input: string, media: Option<StagedMedia>): (p: string)
    ensures |p| >= |input| && p[..|input|] == input
    ensures |p| == |input| <==> media.None?
    ensures media.Some? ==> p[|input|..] == AttachmentNote(media.value)
  {
    match media
    case None => input
    case Some(m) => input + AttachmentNote(m)
  }

  /** An accepted submission always sends a non-empty prompt. */
  lemma AcceptedPromptNonEmpty(input: string, media: Option<StagedMedia>)
    requires !SubmitRejected(input, media)
    ensures PromptToSend(input, media) != []
  {
    if media.None? {
      assert Trim(input) != [];
    }
  }
}

=== FILE: types.dfy ===
/**
 * The records every component of the console shares: the seven persona
 * identifiers, a persona profile, one generation, one review and the
 * session snapshot that moves through the phase machine. Also the few
 * sequence notions (distinctness, the ids of a batch) used throughout.
 */
module Types {

  datatype Option<+T> = None | Some(value: T)

  /** The closed set of persona identifiers, in declaration order. */
  datatype ModelId = Gemini | Gpt | Claude | Grok | DeepSeek | Copilot | November

  /** Every persona identifier, in declaration order. */
  const AllModelIds: seq<ModelId> := [Gemini, Gpt, Claude, Grok, DeepSeek, Copilot, November]

  /** A persona's display metadata; its system-prompt style is looked up
      separately (`Catalog.Style`). */
  datatype ModelProfile = ModelProfile(
    id: ModelId,
    name: string,
    provider: string,
    color: string,
    icon: string)

  /** One persona's answer; `timestamp` is the wall clock when it settled. */
  datatype GenerationResult = GenerationResult(modelId: ModelId, content: string, timestamp: int)

  /** One persona's critique of another persona's answer. */
  datatype Review = Review(reviewerId: ModelId, targetModelId: ModelId, critique: string, score: real)

  datatype Status = Idle | Generating | Shuffling | Reviewing | Grading | Complete

  /**
   * A session snapshot. `savedAt` and `error` are optional in the source
   * (absent until a save or a failure); `anonymizedOrder` is the
   * presentation order that the shuffle replaces.
   */
  datatype SessionState = SessionState(
    id: string,
    savedAt: Option<int>,
    status: Status,
    prompt: string,
    generations: seq<GenerationResult>,
    reviews: seq<Review>,
    error: Option<string>,
    anonymizedOrder: seq<ModelId>)

  /** No element occurs twice. */
  predicate Distinct<T(==)>(s: seq<T>) {
    forall i, j :: 0 <= i < j < |s| ==> s[i] != s[j]
  }

  /** The persona of each generation, in batch order. */
  function GenerationIds(gs: seq<GenerationResult>): (ids: seq<ModelId>)
    ensures |ids| == |gs|
    ensures forall i :: 0 <= i < |gs| ==> ids[i] == gs[i].modelId
  {
    seq(|gs|, i requires 0 <= i < |gs| => gs[i].modelId)
  }

  /** The target of each review, in batch order. */
  function TargetIds(rs: seq<Review>): (ids: seq<ModelId>)
    ensures |ids| == |rs|
    ensures forall i :: 0 <= i < |rs| ==> ids[i] == rs[i].targetModelId
  {
    seq(|rs|, i requires 0 <= i < |rs| => rs[i].targetModelId)
  }

  /** The reviewer of each review, in batch order. */
  function ReviewerIds(rs: seq<Review>): (ids: seq<ModelId>)
    ensures |ids| == |rs|
    ensures forall i :: 0 <= i < |rs| ==> ids[i] == rs[i].reviewerId
  {
    seq(|rs|, i requires 0 <= i < |rs| => rs[i].reviewerId)
  }

  /** The declaration-order list names every identifier exactly once. */
  lemma AllModelIdsComplete()
    ensures Distinct(AllModelIds)
    ensures forall id: ModelId :: id in AllModelIds
  {
    forall id: ModelId ensures id in AllModelIds {
      match id
      case Gemini => assert AllModelIds[0] == id;
      case Gpt => assert AllModelIds[1] == id;
      case Claude => assert AllModelIds[2] == id;
      case Grok => assert AllModelIds[3] == id;
      case DeepSeek => assert AllModelIds[4] == id;
      case Copilot => assert AllModelIds[5] == id;
      case November => assert AllModelIds[6] == id;
    }
  }
}
